=== FILE: README.md ===
# JSON-line layout for logback, in Dafny

This project models `JsonLineLayout`, a logback `PatternLayout` that prints each logging event as one line of JSON. It also models `OpenTelemetryConverter`, the `%otel{...}` converter that adds span and trace ids.

The layout works in five steps:

- **Start.** `start` compiles the pattern into a chain of converters. It then merges logback's converter map into a process-wide table from converter class to JSON key. For each class, the longest keyword wins (`%msg`, `%m` and `%message` all give `message`).
- **Record.** For each event, `doJsonLayout` walks the chain and builds a record:
  - each converter is unwrapped to its leaf;
  - the leaf's key is looked up;
  - line separators and keyless converters write nothing;
  - the message is written as embedded JSON when the event carries the `JSON_MESSAGE` marker, and as a string otherwise.
- **Stack trace.** A `throwable` string is made readable: an empty one is dropped, and a non-empty one becomes an array of lines without tabs.
- **Highlighting.** In pretty mode, every key is wrapped in the ANSI bold sequence.
- **Output.** `doLayout` serialises the record, turns the `\u001B` escapes Jackson wrote back into the escape character, and appends a newline.

Modules, one per concept:

| file | module | models |
|---|---|---|
| options.dfy | `Options` | nullable references (`Option`), `Map.get` |
| java_strings.dfy | `JavaStrings` | `String.replaceAll` with a literal pattern, `String.split` on one character (trailing empty strings dropped), joining |
| logback.dfy | `Logback` | the event: formatted message and marker list |
| open_telemetry.dfy | `OpenTelemetry` | `OpenTelemetryConverter.start/convert/key` |
| key_table.dfy | `KeyTable` | the `CONVERTER_CLASS_TO_KEY` merge |
| converters.dfy | `Converters` | the chain nodes with their options, `leafConverter`, `jsonLineKey`, `convert` |
| json_record.dfy | `JsonRecord` | the record loop, `isJsonMessage`, the `throwable` pass, `bold`, `highlightKeys` |
| layout.dfy | `Layout` | `start`, `doJsonLayout`, `unescape`, `doLayout` |
| scenarios.dfy | `Scenarios` | worked examples: the standard keyword table, a two-line stack trace, `%level %logger %msg%n` with and without the marker, one class used twice, the `exception`/`throwable` tie |

Behaviours of the code that are easy to misread:

- **Ties are order-dependent.** The merge is independent of the converter map's iteration order only when one keyword is strictly longest. `longerString(v, key)` returns the new keyword on an equal-length tie, so the last one merged wins (`KeyTable.EqualLengthTieIsOrderDependent`). Logback's `exception` and `throwable` are such a pair: the stack trace's key is `throwable` when that keyword is merged last, and `exception`, which the `throwable` pass does not look for, otherwise (`Scenarios.ThrowableKeyDependsOnOrder`). The model leaves the iteration order open. The JDK's `HashMap` happens to yield `exception` first, so there the key is `throwable` and the dependence is latent.
- **`unescape` runs in both modes.** `doLayout` applies it to compact output as well as pretty output (`Layout.DoLayout`).
- **The merge runs even when parsing fails.** `start` only returns early on an empty pattern. A `ScanException` is caught and reported, and the merge still runs — unless the layout has no context. In that case the handler's `getContext().getStatusManager()` throws a null-pointer exception out of `start`, and the merge never runs (`Layout.Start`).

Modelling choices:

- **Null keys.** Record keys are `Option<string>` because the message is put without a null check, so a null key is possible.
- **Converter outputs.** Converters outside the model (level, logger, date, MDC, `%replace` and the like) are functions in `Converters.Env`. Each is given its class name and its options, so one class with different options can print different text.
- **Jackson and the span.** Jackson's `writeValueAsString` is the function parameter `write` of `Layout.DoLayout`. It returns `None` when it throws. The current span is a parameter of `OpenTelemetry.Convert`.

## Model

| member | source | states |
|---|---|---|
| KeyTable.Longer | src/main/java/net/keksipurkki/demos/logging/JsonLineLayout.java:81 | the result is one of the two labels and at least as long as both; on equal length it is the second (new) one |
| KeyTable.Register | src/main/java/net/keksipurkki/demos/logging/JsonLineLayout.java:84-85 | one merge step adds the kind and removes nothing; an absent kind maps to the keyword; a present one keeps its old label when that is strictly longer and otherwise takes the keyword; every other kind is unchanged |
| KeyTable.Kinds | src/main/java/net/keksipurkki/demos/logging/JsonLineLayout.java:83-84 | the set of classes is exactly those that some entry mentions, in both directions |
| KeyTable.RegisterAll | src/main/java/net/keksipurkki/demos/logging/JsonLineLayout.java:83-86 | the merged table's keys are the old keys plus every class an entry mentions |
| KeyTable.RegisterAllGrows | src/main/java/net/keksipurkki/demos/logging/JsonLineLayout.java:83-86 | no class is ever dropped and no label ever gets shorter |
| KeyTable.RegisterAllUntouched | src/main/java/net/keksipurkki/demos/logging/JsonLineLayout.java:83-86 | a class no entry mentions keeps its label, or stays absent |
| KeyTable.RegisterAllCovers | src/main/java/net/keksipurkki/demos/logging/JsonLineLayout.java:83-86 | after the merge, a class's label is at least as long as every keyword registered for it |
| KeyTable.RegisterAllOrigin | src/main/java/net/keksipurkki/demos/logging/JsonLineLayout.java:83-86 | a class's final label is its earlier label or one of its registered keywords |
| KeyTable.LongestKeywordWins | src/main/java/net/keksipurkki/demos/logging/JsonLineLayout.java:81-86 | a keyword strictly longer than every other candidate for its class is the final label, whatever the iteration order |
| KeyTable.LongerKeywordEitherOrder | src/main/java/net/keksipurkki/demos/logging/JsonLineLayout.java:81-86 | of two keywords of different length, the longer wins in both orders |
| KeyTable.EqualLengthTieIsOrderDependent | src/main/java/net/keksipurkki/demos/logging/JsonLineLayout.java:81-85 | for any table and any two keywords of equal length, neither shorter than the class's earlier label, the one merged last wins, so two distinct such keywords give different labels in the two orders |
| Converters.BuiltInClassNames | src/main/java/net/keksipurkki/demos/logging/JsonLineLayout.java:112 | the literal, message, line-separator and telemetry converters have four different class names, so one table entry never keys two of them |
| Converters.LeafConverter | src/main/java/net/keksipurkki/demos/logging/JsonLineLayout.java:100-106 | the result is never a composite, and a non-composite is its own leaf; the recursion descends into the child |
| Converters.LeafConverterOfWrapped | src/main/java/net/keksipurkki/demos/logging/JsonLineLayout.java:100-106 | however many composites wrap a leaf, unwrapping finds that leaf |
| Converters.WrappedLeafConverter | src/main/java/net/keksipurkki/demos/logging/JsonLineLayout.java:100-106 | every node is its leaf wrapped in some stack of composites |
| Converters.JsonLineKey | src/main/java/net/keksipurkki/demos/logging/JsonLineLayout.java:108-114 | the telemetry converter gets its first option as key; any other converter that declares a key gets that key, null or not; every other converter gets the table's entry for its class, or null when the class has none |
| Converters.DeclaredKeyBypassesTable | src/main/java/net/keksipurkki/demos/logging/JsonLineLayout.java:109-110 | a declared key does not depend on the table |
| Converters.ConvertWrapped | src/main/java/net/keksipurkki/demos/logging/JsonLineLayout.java:135 | a node wrapped in composites prints its leaf's text transformed by each composite, with its options, the outermost last |
| Converters.ConvertThroughLeaf | src/main/java/net/keksipurkki/demos/logging/JsonLineLayout.java:121-135 | every node's text is its own leaf's text under the transformations of the composites around it |
| JsonRecord.IsJsonMessage | src/main/java/net/keksipurkki/demos/logging/JsonLineLayout.java:156-158 | a marked event has a non-empty marker list, and it is marked exactly when some marker is `JSON_MESSAGE` |
| JsonRecord.JsonMessageMarkers | src/main/java/net/keksipurkki/demos/logging/JsonLineLayout.java:156-158 | a missing list and an empty list both leave the message unmarked; a combined list is marked exactly when one of its parts is, in either order |
| JsonRecord.Effect | src/main/java/net/keksipurkki/demos/logging/JsonLineLayout.java:121-137 | a line separator writes nothing; a keyless non-message writes nothing; a keyed non-message writes its own converted text under its leaf's key; the message is written under the message converter's key, null or not, as raw JSON exactly when the event is marked, taking the event's message rather than a wrapper's output |
| JsonRecord.Apply | src/main/java/net/keksipurkki/demos/logging/JsonLineLayout.java:130-136 | a node that writes adds or overwrites exactly its key with its value; every key it does not write keeps its value; a silent node changes nothing |
| JsonRecord.Build | src/main/java/net/keksipurkki/demos/logging/JsonLineLayout.java:117-138 | the loop writes only strings and raw messages, never arrays, and the only key that can be null is the message converter's |
| JsonRecord.BuildKeysWritten | src/main/java/net/keksipurkki/demos/logging/JsonLineLayout.java:117-138 | every key of the record was written by some node of the chain |
| JsonRecord.BuildHasEveryWrittenKey | src/main/java/net/keksipurkki/demos/logging/JsonLineLayout.java:117-138 | every key a node writes is in the record |
| JsonRecord.BuildLastWriteWins | src/main/java/net/keksipurkki/demos/logging/JsonLineLayout.java:119-137 | a key written by several nodes holds the value of the last of them |
| JsonRecord.MessageField | src/main/java/net/keksipurkki/demos/logging/JsonLineLayout.java:128-131 | the message field holds the event's message, raw exactly when the event is marked `JSON_MESSAGE`, whichever composite wraps the message converter |
| JsonRecord.DropSilentPrefix | src/main/java/net/keksipurkki/demos/logging/JsonLineLayout.java:119-138 | removing a node that writes nothing leaves the record of every longer prefix unchanged |
| JsonRecord.DropSilentNode | src/main/java/net/keksipurkki/demos/logging/JsonLineLayout.java:124-126 | removing a line separator, or a keyless non-message node, does not change the record |
| JsonRecord.StackTraceLines | src/main/java/net/keksipurkki/demos/logging/JsonLineLayout.java:144 | no line of the readable stack trace contains a tab or a newline |
| JsonRecord.StackTraceLinesJoin | src/main/java/net/keksipurkki/demos/logging/JsonLineLayout.java:144 | joining the lines with newlines gives back the trace without tabs, apart from the trailing newlines that `split` drops |
| JsonRecord.ReadableThrowable | src/main/java/net/keksipurkki/demos/logging/JsonLineLayout.java:140-147 | an empty `throwable` string is removed; a non-empty one becomes its lines; a missing or non-string `throwable` leaves the record as it is; every other key is unchanged |
| JsonRecord.Bold | src/main/java/net/keksipurkki/demos/logging/JsonLineLayout.java:170-172 | the bold text is as long as prefix, text and suffix together, and the text can be read back between the fixed prefix and suffix |
| JsonRecord.BoldInjective | src/main/java/net/keksipurkki/demos/logging/JsonLineLayout.java:170-172 | different texts give different bold texts |
| JsonRecord.HighlightKeys | src/main/java/net/keksipurkki/demos/logging/JsonLineLayout.java:160-168 | the keys are exactly the bold forms of the old keys (null printing as "null"); each named key's value is kept under its bold form; a null key's value is kept when no key "null" competes; no value is invented |
| JsonRecord.HighlightedKeysCount | src/main/java/net/keksipurkki/demos/logging/JsonLineLayout.java:163-165 | highlighting a set of keys that it does not merge gives as many keys |
| JsonRecord.HighlightedKeyInjective | src/main/java/net/keksipurkki/demos/logging/JsonLineLayout.java:163-165 | highlighting merges no two keys unless they are a null key and "null" |
| JsonRecord.HighlightKeysSizeDistinct | src/main/java/net/keksipurkki/demos/logging/JsonLineLayout.java:160-168 | without both a null key and a key "null", highlighting keeps the number of entries |
| JsonRecord.HighlightKeysSizeMerged | src/main/java/net/keksipurkki/demos/logging/JsonLineLayout.java:160-168 | a null key and a key "null" merge into one entry |
| Layout.Start | src/main/java/net/keksipurkki/demos/logging/JsonLineLayout.java:59-86 | a null or empty pattern reports an error and leaves the chain empty and the table untouched; a parse failure without a context throws before the merge, leaving the table untouched; otherwise the table is merged even when parsing failed, and the chain is the compiled one, or empty after a reported parse failure |
| Layout.StartCoversConverterMap | src/main/java/net/keksipurkki/demos/logging/JsonLineLayout.java:76-86 | after a start that reaches the merge, every keyword of the converter map has a key at least as long as itself, whether or not parsing succeeded |
| Layout.DoJsonLayout | src/main/java/net/keksipurkki/demos/logging/JsonLineLayout.java:116-154 | an empty chain gives an empty record; in compact mode, keys and values other than `throwable` are those the chain wrote; in pretty mode, the keys are exactly the bold forms of the keys left after the `throwable` pass, so none is invented, no value is invented either, each named value other than `throwable` sits under its bold key, and a null-keyed value sits under bold "null" when no key "null" competes; in both modes, under the plain or bold `throwable` key, an absent or empty stack trace leaves no field, a non-empty one becomes its array of lines, and a raw value is kept |
| Layout.Unescape | src/main/java/net/keksipurkki/demos/logging/JsonLineLayout.java:174-176 | no `\u001B` sequence is left, and when the input had no escape character, escaping the result gives back the input, so each sequence became one escape character |
| Layout.UnescapeEscape | src/main/java/net/keksipurkki/demos/logging/JsonLineLayout.java:174-176 | unescaping undoes the escaping of the escape character for text that has no `\u001B` sequence |
| Layout.DoLayout | src/main/java/net/keksipurkki/demos/logging/JsonLineLayout.java:94-98 | a line is produced exactly when the writer succeeds; it ends with one newline; before it, no `\u001B` sequence is left, and the text is the writer's output with those sequences turned into escape characters |
| OpenTelemetry.Start | src/main/java/net/keksipurkki/demos/logging/OpenTelemetryConverter.java:12-22 | the converter keeps its option; it picks the span-id supplier exactly for "spanId" and the trace-id supplier exactly for "traceId" |
| OpenTelemetry.Convert | src/main/java/net/keksipurkki/demos/logging/OpenTelemetryConverter.java:25-35 | the text is the current span id, the current trace id, or empty, and it is empty for the fallback supplier |
| OpenTelemetry.StartThenConvert | src/main/java/net/keksipurkki/demos/logging/OpenTelemetryConverter.java:12-40 | the key is the option verbatim; "spanId" prints the span id, "traceId" prints the trace id, and any other option prints "" |
| OpenTelemetry.ConvertIgnoresEvent | src/main/java/net/keksipurkki/demos/logging/OpenTelemetryConverter.java:25-27 | the output depends on the supplier and the current span, never on the event |
| JavaStrings.ReplaceAll | src/main/java/net/keksipurkki/demos/logging/JsonLineLayout.java:144 | text without the pattern is unchanged, and replacing a character by text without it removes every occurrence |
| JavaStrings.ReplaceAllRemovesPattern | src/main/java/net/keksipurkki/demos/logging/JsonLineLayout.java:175 | after replacing a pattern by a character foreign to it, the pattern no longer occurs |
| JavaStrings.ReplaceAllRoundTrip | src/main/java/net/keksipurkki/demos/logging/JsonLineLayout.java:175 | replacing a pattern by a character absent from the text, then the character by the pattern, gives back the text |
| JavaStrings.ReplaceAllRoundTripBack | src/main/java/net/keksipurkki/demos/logging/JsonLineLayout.java:175 | replacing a character by a pattern absent from the text, then the pattern by the character, gives back the text |
| JavaStrings.Split | src/main/java/net/keksipurkki/demos/logging/JsonLineLayout.java:144 | no piece holds the separator, every character comes from the text, and a non-empty text has no trailing empty piece |
| JavaStrings.SplitJoin | src/main/java/net/keksipurkki/demos/logging/JsonLineLayout.java:144 | joining the pieces gives back the text, apart from the trailing separators that `split` drops |
| Scenarios.StandardKeyTable | src/main/java/net/keksipurkki/demos/logging/JsonLineLayout.java:81-86 | a converter map holding logback's keywords for level, logger and message among entries for any other non-literal converters gives the keys `level`, `logger` and `message`, and the literal converter no key, in any iteration order |
| Scenarios.ThrowableKeyDependsOnOrder | src/main/java/net/keksipurkki/demos/logging/JsonLineLayout.java:81-85 | `exception` and `throwable` for one class give `throwable` in one order and `exception` in the other |
| Scenarios.StackTraceScenario | src/main/java/net/keksipurkki/demos/logging/JsonLineLayout.java:140-147 | the trace `line1\n\tline2\n` becomes the two lines `line1` and `line2` |
| Scenarios.LevelLoggerMessageRecord | src/main/java/net/keksipurkki/demos/logging/JsonLineLayout.java:116-154 | `%level %logger %msg%n` under any table with the standard keys for level, logger and message and none for literals gives the level, logger and message fields, the message raw exactly when marked, and nothing for the literals or the line separator |
| Scenarios.PlainMessageScenario | src/main/java/net/keksipurkki/demos/logging/JsonLineLayout.java:116-138 | with the table merged in any order from a converter map that holds logback's keywords for level, logger and message, whatever other converters it holds, an unmarked event gives three string fields |
| Scenarios.MarkedMessageScenario | src/main/java/net/keksipurkki/demos/logging/JsonLineLayout.java:128-131 | with the same merged table, a marked event embeds the message as raw JSON |
| Scenarios.SameClassTwice | src/main/java/net/keksipurkki/demos/logging/JsonLineLayout.java:134-136 | one class used twice with different options writes one key, holding the second node's text |

## Left out

- **Parsing and starting the chain.** Logback's `Parser.parse`, `compile` and `ConverterUtil` are library code (`JsonLineLayout.java:68-74`, `:88-89`). The compiled chain, or its absence after a `ScanException`, is an input of `Layout.Start`, and so is whether a context is set. The converters in the chain are taken as already started.
- **Jackson.** Serialisation, `DefaultPrettyPrinter` and `NON_NULL` are not modelled. The writer is the parameter `write`: `None` stands for a writer that throws, such as Jackson's default refusal of a null map key. Nothing is claimed about when it throws, about field order, or about indentation.
- Layout.DoLayout: promises a line only when `write` succeeds. It does not promise that compact output of a record with a null key fails, because when the writer throws is not modelled.
- Layout.Escape: models only how Jackson writes the escape character. Jackson also writes a backslash as two backslashes. So a value that already contains the six characters `\u001B` comes out of `unescape` as a backslash followed by the escape character. `Layout.UnescapeEscape` excludes such text, and the model does not describe it.
- **Other converters.** The text of the level, logger, composite and other converters comes from `Converters.Env`, given their class name and options. Converter outputs are non-null strings, so null values in the record are not modelled.
- Converters.LeafConverter: a composite always has a child in the model. In logback, an empty composite such as `%highlight()` has a null child converter. `leafConverter` then returns null and `jsonLineKey` calls `getClass()` on it (`JsonLineLayout.java:100-112`), so `doLayout` throws on every event. That error path is not modelled.
- **Format modifiers.** Padding and truncation (`%-5level`, `%.10logger`) are not modelled. The loop calls `convert`, which ignores a node's own modifiers (`JsonLineLayout.java:129`, `:135`), so for a top-level node the model is exact. A composite, however, writes its children with their modifiers, and `Env.wrap` does not see those. So `%highlight(%-5level)` and `%highlight(%level)` are the same node in the model, although logback prints them differently.
- **A composite's child chain.** It is reduced to its head node (`getChildConverter`). `Env.wrap` sees only the head's text, so two composites that differ only in the nodes after their head print the same text.
- KeyTable.Entry: one string serves both as the converter map's value (`entry.getValue().toString()`, `JsonLineLayout.java:84-85`) and as the converter's `getClass().getName()` (`:112`). The two agree only when the converter map's values print as the converters' class names. Every table lookup, and so the scenarios, rests on that assumption.
- **`Span.current()`.** The lookup is the parameter `span`.
- **A null first option.** `Map.of(...).getOrDefault(null, ...)` throws, so `OpenTelemetry.Start` takes a non-null option.
- **Thread safety.** Concurrent starts sharing the static key table are not modelled. The table is threaded through `Layout.Start` as a value.
- **ANSI values.** The colour codes are constants, and no property depends on their text. `bold` is only applied to keys.
- **String lengths.** Java measures `length()` in UTF-16 units. The model counts Dafny characters, which agrees for keywords in the Basic Multilingual Plane.
- **`JavaStrings.ReplaceAll`: literal patterns only.** Its contract covers the two literal patterns the layout uses (a tab, and the six characters `\u001B`), not general regular expressions.
- **Application code.** `Application.java`, `Main.java` and `HelloWorld.java` are the HTTP server, the event bus and the startup, and are not part of this model.

=== FILE: converters.dfy ===
/**
 * The compiled converter chain as the layout sees it, and the two questions
 * it asks of each node: which leaf converter sits inside it, and which JSON
 * key that leaf has.
 */
module Converters {
  import opened Options
  import Logback
  import OpenTelemetry
  import KeyTable

  const LiteralClass: string := "ch.qos.logback.core.pattern.LiteralConverter"
  const MessageClass: string := "ch.qos.logback.classic.pattern.MessageConverter"
  const LineSeparatorClass: string := "ch.qos.logback.classic.pattern.LineSeparatorConverter"
  const TelemetryClass: string := "net.keksipurkki.demos.logging.OpenTelemetryConverter"

  /** The platform line separator printed by `%n`. */
  const LineSeparatorText: string := "\n"

  /**
   * One node of the chain. `Leaf` stands for every other leaf converter,
   * known by its class name and its options (`%d{HH:mm}` has the option
   * "HH:mm"); `Declared` is a leaf converter that implements `JsonLineKey`
   * and so names its own key, possibly null; `Composite` is a wrapping
   * converter such as `%replace(...){...}`, with `child` the head of its
   * child chain.
   */
  datatype Node =
    | Literal(text: string)
    | Message
    | LineSeparator
    | Telemetry(converter: OpenTelemetry.Converter)
    | Declared(kind: string, options: seq<string>, key: Option<string>)
    | Leaf(kind: string, options: seq<string>)
    | Composite(kind: string, options: seq<string>, child: Node)

  /** One composite around a child: its class name and its options. */
  datatype Layer = Layer(kind: string, options: seq<string>)

  /**
   * What the converters outside this model compute for an event: a plain
   * leaf converter's text from its class and options, a composite's
   * transformation of its child's text, and the tracing span current at
   * conversion time.
   */
  datatype Env = Env(
    leaf: (string, seq<string>, Logback.Event) -> string,
    wrap: (string, seq<string>, Logback.Event, string) -> string,
    span: OpenTelemetry.SpanContext)

  /** `getClass().getName()` of the converter a node stands for. */
  function ClassName(n: Node): string
  {
    match n
    case Literal(_) => LiteralClass
    case Message => MessageClass
    case LineSeparator => LineSeparatorClass
    case Telemetry(_) => TelemetryClass
    case Declared(kind, _, _) => kind
    case Leaf(kind, _) => kind
    case Composite(kind, _, _) => kind
  }

  /** The four converters this model knows by name. */
  predicate BuiltIn(n: Node)
  {
    n.Literal? || n.Message? || n.LineSeparator? || n.Telemetry?
  }

  /**
   * The built-in converters have four different class names, so a table
   * entry for one of them never keys another.
   */
  lemma BuiltInClassNames(n: Node, m: Node)
    requires BuiltIn(n) && BuiltIn(m) && ClassName(n) == ClassName(m)
    ensures n.Literal? == m.Literal? && n.Message? == m.Message?
    ensures n.LineSeparator? == m.LineSeparator? && n.Telemetry? == m.Telemetry?
  {
    assert |LiteralClass| == 44 && |MessageClass| == 47;
    assert |LineSeparatorClass| == 53 && |TelemetryClass| == 52;
  }

  /** The converters that name their own key (`instanceof JsonLineKey`). */
  predicate DeclaresKey(n: Node)
  {
    n.Telemetry? || n.Declared?
  }

  /** `leafConverter`: unwrap composites until a non-composite converter remains. */
  function LeafConverter(n: Node): (leaf: Node)
    ensures !leaf.Composite?
    ensures !n.Composite? ==> leaf == n
    decreases n
  {
    if n.Composite? then LeafConverter(n.child) else n
  }

  /** A stack of composites around `inner`, outermost first. */
  function Wrapped(layers: seq<Layer>, inner: Node): (n: Node)
    ensures |layers| > 0 ==> n.Composite?
    decreases |layers|
  {
    if |layers| == 0 then inner
    else Composite(layers[0].kind, layers[0].options, Wrapped(layers[1..], inner))
  }

  /** However many composites wrap a leaf, unwrapping finds that leaf. */
  lemma {:induction false} LeafConverterOfWrapped(layers: seq<Layer>, leaf: Node)
    requires !leaf.Composite?
    ensures LeafConverter(Wrapped(layers, leaf)) == leaf
    decreases |layers|
  {
    if |layers| > 0 {
      LeafConverterOfWrapped(layers[1..], leaf);
    }
  }

  /** Every node is its leaf wrapped in some stack of composites. */
  lemma {:induction false} WrappedLeafConverter(n: Node) returns (layers: seq<Layer>)
    ensures Wrapped(layers, LeafConverter(n)) == n
    decreases n
  {
    if n.Composite? {
      var inner := WrappedLeafConverter(n.child);
      layers := [Layer(n.kind, n.options)] + inner;
      assert layers[1..] == inner;
    } else {
      layers := [];
    }
  }

  /**
   * `jsonLineKey`: a converter that declares its own key (the telemetry
   * converter or any other `JsonLineKey`) uses it; any other converter gets
   * the table's entry for its class, `None` (null) when there is none.
   */
  function JsonLineKey(leaf: Node, table: KeyTable.Table): (key: Option<string>)
    ensures leaf.Telemetry? ==> key == Some(leaf.converter.firstOption)
    ensures leaf.Declared? ==> key == leaf.key
    ensures !DeclaresKey(leaf) ==> (key.Some? <==> ClassName(leaf) in table)
    ensures !DeclaresKey(leaf) && key.Some? ==> key.value == table[ClassName(leaf)]
  {
    if leaf.Telemetry? then Some(OpenTelemetry.Key(leaf.converter))
    else if leaf.Declared? then leaf.key
    else Get(table, ClassName(leaf))
  }

  /** A self-declared key does not depend on the table at all. */
  lemma DeclaredKeyBypassesTable(leaf: Node, t1: KeyTable.Table, t2: KeyTable.Table)
    requires DeclaresKey(leaf)
    ensures JsonLineKey(leaf, t1) == JsonLineKey(leaf, t2)
  {
  }

  /** `convert(event)`: the text a node prints for an event. */
  function Convert(n: Node, e: Logback.Event, env: Env): string
    decreases n
  {
    match n
    case Literal(text) => text
    case Message => e.message
    case LineSeparator => LineSeparatorText
    case Telemetry(c) => OpenTelemetry.Convert(c, e, env.span)
    case Declared(kind, options, _) => env.leaf(kind, options, e)
    case Leaf(kind, options) => env.leaf(kind, options, e)
    case Composite(kind, options, child) => env.wrap(kind, options, e, Convert(child, e, env))
  }

  /** The text of `inner` passed through each layer's transformation, innermost first. */
  function Decorate(layers: seq<Layer>, e: Logback.Event, env: Env, inner: string): string
    decreases |layers|
  {
    if |layers| == 0 then inner
    else env.wrap(layers[0].kind, layers[0].options, e, Decorate(layers[1..], e, env, inner))
  }

  /**
   * A wrapped node prints its leaf's text transformed by every composite
   * around it, the outermost one last.
   */
  lemma {:induction false} ConvertWrapped(layers: seq<Layer>, leaf: Node, e: Logback.Event, env: Env)
    ensures Convert(Wrapped(layers, leaf), e, env) == Decorate(layers, e, env, Convert(leaf, e, env))
    decreases |layers|
  {
    if |layers| > 0 {
      ConvertWrapped(layers[1..], leaf, e, env);
    }
  }

  /** Every node prints its own leaf's text under the transformations of its composites. */
  lemma ConvertThroughLeaf(n: Node, e: Logback.Event, env: Env) returns (layers: seq<Layer>)
    ensures Wrapped(layers, LeafConverter(n)) == n
    ensures Convert(n, e, env) == Decorate(layers, e, env, Convert(LeafConverter(n), e, env))
  {
    layers := WrappedLeafConverter(n);
    ConvertWrapped(layers, LeafConverter(n), e, env);
  }
}

=== FILE: java_strings.dfy ===
/**
 * The few `java.lang.String` operations the layout relies on, for the
 * arguments it passes them: `replaceAll` with a regular expression that
 * matches one literal text, and `split` on a single character.
 */
module JavaStrings {

  /** `s` begins with `p`. */
  predicate StartsWith(s: string, p: string)
  {
    |p| <= |s| && s[..|p|] == p
  }

  /** `p` occurs somewhere in `s`. */
  predicate Contains(s: string, p: string)
    decreases |s|
  {
    StartsWith(s, p) || (|s| > 0 && Contains(s[1..], p))
  }

  /** `n` copies of the character `c`. */
  function Repeat(c: char, n: nat): (r: string)
    ensures |r| == n
    ensures forall i :: 0 <= i < n ==> r[i] == c
  {
    if n == 0 then "" else Repeat(c, n - 1) + [c]
  }

  /**
   * `s.replaceAll(regex, rep)` for a regex that matches exactly the text `pat`
   * and a replacement free of `$` and `\`: the matcher scans left to right,
   * replaces each match and resumes right after it.
   */
  function ReplaceAll(s: string, pat: string, rep: string): (r: string)
    requires |pat| > 0
    ensures !Contains(s, pat) ==> r == s
    ensures |pat| == 1 && pat[0] !in rep ==> pat[0] !in r
    decreases |s|
  {
    if StartsWith(s, pat) then rep + ReplaceAll(s[|pat|..], pat, rep)
    else if |s| == 0 then ""
    else [s[0]] + ReplaceAll(s[1..], pat, rep)
  }

  /**
   * When the replacement starts with a character that `w` lacks and `w` lacks
   * the first character of the pattern, an output that begins with `w` came
   * from an input that begins with `w`.
   */
  lemma {:induction false} ReplaceAllPrefix(t: string, pat: string, rep: string, w: string)
    requires |pat| > 0 && |rep| > 0 && |w| > 0
    requires rep[0] !in w && pat[0] !in w
    ensures StartsWith(ReplaceAll(t, pat, rep), w) ==> StartsWith(t, w)
    decreases |t|
  {
    var r := ReplaceAll(t, pat, rep);
    if StartsWith(t, pat) {
      assert r[0] == rep[0];
    } else if |t| > 0 {
      var tail := ReplaceAll(t[1..], pat, rep);
      assert r == [t[0]] + tail;
      if |w| > 1 && StartsWith(r, w) {
        assert tail[..|w| - 1] == r[1..|w|];
        ReplaceAllPrefix(t[1..], pat, rep, w[1..]);
        assert t[..|w|] == [t[0]] + t[1..][..|w| - 1];
      }
    }
  }

  /**
   * An input that does not begin with the pattern gives an output that does
   * not begin with it either, when the pattern cannot overlap itself and the
   * replacement does not start with a character of the pattern's tail.
   */
  lemma {:induction false} ReplaceAllKeepsHead(s: string, pat: string, rep: string)
    requires |pat| > 0 && |rep| > 0 && pat[0] !in pat[1..] && rep[0] !in pat[1..]
    requires |s| > 0 && !StartsWith(s, pat)
    ensures !StartsWith(ReplaceAll(s, pat, rep), pat)
  {
    var r := ReplaceAll(s, pat, rep);
    var tail := ReplaceAll(s[1..], pat, rep);
    assert r == [s[0]] + tail;
    if |pat| == 1 {
      assert r[..1] == s[..1];
    } else {
      ReplaceAllPrefix(s[1..], pat, rep, pat[1..]);
      assert StartsWith(r, pat) ==> StartsWith(tail, pat[1..]) by {
        if |pat| <= |r| {
          assert tail[..|pat| - 1] == r[1..|pat|];
          assert r[1..|pat|] == r[..|pat|][1..];
        }
      }
      assert r[0] == s[0];
      assert StartsWith(s[1..], pat[1..]) && s[0] == pat[0] ==> StartsWith(s, pat) by {
        if |pat| <= |s| {
          assert s[..|pat|] == [s[0]] + s[1..][..|pat| - 1];
          assert pat == [pat[0]] + pat[1..];
        }
      }
    }
  }

  /**
   * Replacing every occurrence of a pattern that cannot overlap itself by a
   * character foreign to it leaves no occurrence behind.
   */
  lemma {:induction false} ReplaceAllRemovesPattern(s: string, pat: string, c: char)
    requires |pat| > 0 && pat[0] !in pat[1..] && c !in pat
    ensures !Contains(ReplaceAll(s, pat, [c]), pat)
    decreases |s|
  {
    var r := ReplaceAll(s, pat, [c]);
    if StartsWith(s, pat) {
      var tail := ReplaceAll(s[|pat|..], pat, [c]);
      assert r == [c] + tail;
      ReplaceAllRemovesPattern(s[|pat|..], pat, c);
      assert r[0] != pat[0];
      assert r[1..] == tail;
    } else if |s| > 0 {
      var tail := ReplaceAll(s[1..], pat, [c]);
      assert r == [s[0]] + tail;
      assert r[1..] == tail;
      ReplaceAllRemovesPattern(s[1..], pat, c);
      ReplaceAllKeepsHead(s, pat, [c]);
    }
  }

  /**
   * Replacing a pattern by a foreign character `c` and then each `c` by the
   * pattern restores any text that did not contain `c`.
   */
  lemma {:induction false} ReplaceAllRoundTrip(s: string, pat: string, c: char)
    requires |pat| > 0 && c !in pat && c !in s
    ensures ReplaceAll(ReplaceAll(s, pat, [c]), [c], pat) == s
    decreases |s|
  {
    if StartsWith(s, pat) {
      var rest := s[|pat|..];
      var u := ReplaceAll(rest, pat, [c]);
      assert ReplaceAll(s, pat, [c]) == [c] + u;
      assert c !in rest by { assert forall i :: 0 <= i < |rest| ==> rest[i] == s[i + |pat|]; }
      ReplaceAllRoundTrip(rest, pat, c);
      assert ([c] + u)[1..] == u;
      assert ReplaceAll([c] + u, [c], pat) == pat + ReplaceAll(u, [c], pat);
      assert s == s[..|pat|] + rest;
    } else if |s| > 0 {
      var u := ReplaceAll(s[1..], pat, [c]);
      assert ReplaceAll(s, pat, [c]) == [s[0]] + u;
      assert c !in s[1..] by { assert forall i :: 0 <= i < |s| - 1 ==> s[1..][i] == s[i + 1]; }
      ReplaceAllRoundTrip(s[1..], pat, c);
      assert ([s[0]] + u)[1..] == u;
      assert !StartsWith([s[0]] + u, [c]);
      assert ReplaceAll([s[0]] + u, [c], pat) == [s[0]] + ReplaceAll(u, [c], pat);
    }
  }

  /**
   * Replacing `c` by the pattern cannot make the pattern appear at the front
   * of a text that neither starts with `c` nor with the pattern.
   */
  lemma {:induction false} EscapeKeepsHead(s: string, pat: string, c: char)
    requires |pat| > 0 && pat[0] !in pat[1..] && c !in pat
    requires |s| > 0 && s[0] != c && !StartsWith(s, pat)
    ensures !StartsWith(ReplaceAll(s, [c], pat), pat)
  {
    var e := ReplaceAll(s[1..], [c], pat);
    var r := ReplaceAll(s, [c], pat);
    assert !StartsWith(s, [c]);
    assert r == [s[0]] + e;
    if |pat| == 1 {
      assert r[..1] == s[..1];
    } else {
      ReplaceAllPrefix(s[1..], [c], pat, pat[1..]);
      assert StartsWith(r, pat) ==> StartsWith(e, pat[1..]) by {
        if |pat| <= |r| {
          assert e[..|pat| - 1] == r[1..|pat|];
          assert r[1..|pat|] == r[..|pat|][1..];
        }
      }
      assert r[0] == s[0];
      assert StartsWith(s[1..], pat[1..]) && s[0] == pat[0] ==> StartsWith(s, pat) by {
        if |pat| <= |s| {
          assert s[..|pat|] == [s[0]] + s[1..][..|pat| - 1];
          assert pat == [pat[0]] + pat[1..];
        }
      }
    }
  }

  /**
   * Replacing each `c` by a pattern that cannot overlap itself and then the
   * pattern by `c` restores any text in which the pattern did not occur.
   */
  lemma {:induction false} ReplaceAllRoundTripBack(s: string, pat: string, c: char)
    requires |pat| > 0 && pat[0] !in pat[1..] && c !in pat && !Contains(s, pat)
    ensures ReplaceAll(ReplaceAll(s, [c], pat), pat, [c]) == s
    decreases |s|
  {
    if |s| > 0 {
      var e := ReplaceAll(s[1..], [c], pat);
      ReplaceAllRoundTripBack(s[1..], pat, c);
      if s[0] == c {
        assert StartsWith(s, [c]);
        assert ReplaceAll(s, [c], pat) == pat + e;
        assert StartsWith(pat + e, pat);
        assert (pat + e)[|pat|..] == e;
        assert ReplaceAll(pat + e, pat, [c]) == [c] + ReplaceAll(e, pat, [c]);
        assert s == [c] + s[1..];
      } else {
        assert ReplaceAll(s, [c], pat) == [s[0]] + e;
        EscapeKeepsHead(s, pat, c);
        assert ([s[0]] + e)[1..] == e;
        assert ReplaceAll([s[0]] + e, pat, [c]) == [s[0]] + ReplaceAll(e, pat, [c]);
        assert s == [s[0]] + s[1..];
      }
    }
  }

  /** The pieces of `s` between occurrences of `d`, every empty piece kept. */
  function Pieces(s: string, d: char): (p: seq<string>)
    ensures |p| > 0
    ensures forall i :: 0 <= i < |p| ==> d !in p[i]
    ensures forall i, ch :: 0 <= i < |p| && ch in p[i] ==> ch in s
    decreases |s|
  {
    if |s| == 0 then [""]
    else
      var rest := Pieces(s[1..], d);
      assert forall ch :: ch in s[1..] ==> ch in s;
      if s[0] == d then [""] + rest
      else [[s[0]] + rest[0]] + rest[1..]
  }

  /** A one-character pattern occurs exactly where its character does. */
  lemma {:induction false} ContainsChar(s: string, c: char)
    ensures Contains(s, [c]) <==> c in s
    decreases |s|
  {
    if |s| > 0 {
      ContainsChar(s[1..], c);
      assert s == [s[0]] + s[1..];
      assert StartsWith(s, [c]) <==> s[0] == c by {
        assert s[..1] == [s[0]];
      }
    }
  }

  /** Text without the character is left as it is by replacing that character. */
  lemma ReplaceAbsentChar(s: string, c: char, rep: string)
    requires c !in s
    ensures ReplaceAll(s, [c], rep) == s
  {
    ContainsChar(s, c);
  }

  /** A leading occurrence of the character is replaced, the rest handled after it. */
  lemma ReplaceLeadingChar(c: char, t: string, rep: string)
    ensures ReplaceAll([c] + t, [c], rep) == rep + ReplaceAll(t, [c], rep)
  {
    assert ([c] + t)[..1] == [c];
    assert ([c] + t)[1..] == t;
  }

  /** A single-character replacement works piecewise on a concatenation. */
  lemma {:induction false} ReplaceCharConcat(a: string, b: string, c: char, rep: string)
    ensures ReplaceAll(a + b, [c], rep) == ReplaceAll(a, [c], rep) + ReplaceAll(b, [c], rep)
    decreases |a|
  {
    if |a| > 0 {
      ReplaceCharConcat(a[1..], b, c, rep);
      assert (a + b)[1..] == a[1..] + b;
      assert (a + b)[..1] == a[..1];
    } else {
      assert a + b == b;
    }
  }

  /** A text without the delimiter followed by the delimiter is the first piece. */
  lemma {:induction false} PiecesFirst(a: string, d: char, b: string)
    requires d !in a
    ensures Pieces(a + [d] + b, d) == [a] + Pieces(b, d)
    decreases |a|
  {
    if |a| == 0 {
      assert a + [d] + b == [d] + b;
      assert ([d] + b)[1..] == b;
    } else {
      PiecesFirst(a[1..], d, b);
      assert (a + [d] + b)[1..] == a[1..] + [d] + b;
      assert [a[0]] + a[1..] == a;
    }
  }

  /** The pieces of `p` with `d` between consecutive ones: `String.join`. */
  function Join(p: seq<string>, d: char): string
    decreases |p|
  {
    if |p| == 0 then ""
    else if |p| == 1 then p[0]
    else p[0] + [d] + Join(p[1..], d)
  }

  /** `p` without its trailing empty pieces. */
  function TrimTrailingEmpty(p: seq<string>): (q: seq<string>)
    ensures |q| <= |p| && q == p[..|q|]
    ensures |q| > 0 ==> q[|q| - 1] != ""
    ensures forall i :: |q| <= i < |p| ==> p[i] == ""
    decreases |p|
  {
    if |p| > 0 && p[|p| - 1] == "" then TrimTrailingEmpty(p[..|p| - 1]) else p
  }

  /**
   * `s.split(d)` for a delimiter with no special meaning in a regex: the
   * pieces between delimiters with the trailing empty ones dropped; an empty
   * `s` yields one empty piece.
   */
  function Split(s: string, d: char): (r: seq<string>)
    ensures forall i :: 0 <= i < |r| ==> d !in r[i]
    ensures forall i, ch :: 0 <= i < |r| && ch in r[i] ==> ch in s
    ensures s != "" && |r| > 0 ==> r[|r| - 1] != ""
  {
    if |s| == 0 then [""] else TrimTrailingEmpty(Pieces(s, d))
  }

  /** Joining the pieces puts back exactly the text that was split. */
  lemma {:induction false} JoinPieces(s: string, d: char)
    ensures Join(Pieces(s, d), d) == s
    decreases |s|
  {
    if |s| > 0 {
      var rest := Pieces(s[1..], d);
      JoinPieces(s[1..], d);
      if s[0] == d {
        assert ([""] + rest)[1..] == rest;
      } else if |rest| == 1 {
        assert Join(rest, d) == rest[0];
      } else {
        var p := [[s[0]] + rest[0]] + rest[1..];
        assert p[1..] == rest[1..];
        assert Join(rest, d) == rest[0] + [d] + Join(rest[1..], d);
      }
      assert s == [s[0]] + s[1..];
    }
  }

  /** Appending a piece adds one delimiter and the piece. */
  lemma {:induction false} JoinSnoc(q: seq<string>, x: string, d: char)
    requires |q| > 0
    ensures Join(q + [x], d) == Join(q, d) + [d] + x
    decreases |q|
  {
    if |q| > 1 {
      assert (q + [x])[1..] == q[1..] + [x];
      JoinSnoc(q[1..], x, d);
    } else {
      assert (q + [x])[1..] == [x];
    }
  }

  /** Dropping trailing empty pieces drops only trailing delimiters from the join. */
  lemma {:induction false} JoinTrim(p: seq<string>, d: char) returns (k: nat)
    ensures Join(p, d) == Join(TrimTrailingEmpty(p), d) + Repeat(d, k)
    decreases |p|
  {
    if |p| > 0 && p[|p| - 1] == "" {
      var q := p[..|p| - 1];
      assert p == q + [""];
      if |q| == 0 {
        k := 0;
      } else {
        var k' := JoinTrim(q, d);
        JoinSnoc(q, "", d);
        k := k' + 1;
      }
    } else {
      k := 0;
    }
  }

  /**
   * Splitting loses nothing but trailing delimiters: joining the pieces with
   * `d` and adding some number of `d`s gives back the text.
   */
  lemma SplitJoin(s: string, d: char)
    ensures exists k: nat :: s == Join(Split(s, d), d) + Repeat(d, k)
  {
    if |s| > 0 {
      JoinPieces(s, d);
      var k := JoinTrim(Pieces(s, d), d);
      assert s == Join(Split(s, d), d) + Repeat(d, k);
    } else {
      assert s == Join(Split(s, d), d) + Repeat(d, 0);
    }
  }
}

=== FILE: json_record.dfy ===
/**
 * The per-event JSON record: built by walking the chain, then the
 * `throwable` post-pass and, in pretty mode, key highlighting.
 */
module JsonRecord {
  import opened Options
  import opened JavaStrings
  import Logback
  import KeyTable
  import opened Converters

  /**
   * A record value: a plain string, a message embedded verbatim as JSON
   * (Jackson's `RawValue`), or the lines of a stack trace (`String[]`).
   */
  datatype Value = Str(s: string) | Raw(text: string) | Arr(items: seq<string>)

  /** The record map; its keys are nullable, as the message is put unchecked. */
  type Record = map<Option<string>, Value>

  /** What one render needs besides the chain: the event, the key table, the outside converters. */
  datatype Context = Context(event: Logback.Event, table: KeyTable.Table, env: Env)

  /** One `json.put(key, value)`. */
  datatype Write = Write(key: Option<string>, value: Value)

  /** The name of the marker that flags a message as ready-made JSON. */
  const JsonMessageMarker: string := "JSON_MESSAGE"

  /**
   * `isJsonMessage`: the event has a marker list and it holds `JSON_MESSAGE`;
   * a missing list and an empty one both leave the message a plain string.
   */
  function IsJsonMessage(e: Logback.Event): (marked: bool)
    ensures marked ==> e.markers.Some? && |e.markers.value| > 0
    ensures marked <==> e.markers.Some? && exists i :: 0 <= i < |e.markers.value| && e.markers.value[i] == JsonMessageMarker
  {
    e.markers.Some? && JsonMessageMarker in e.markers.value
  }

  /**
   * Only the presence of `JSON_MESSAGE` among the markers counts: other
   * markers around it neither add nor take away the flag, and a missing list
   * behaves as an empty one.
   */
  lemma JsonMessageMarkers(message: string, ms: seq<string>, extra: seq<string>)
    ensures IsJsonMessage(Logback.Event(message, None)) == IsJsonMessage(Logback.Event(message, Some([]))) == false
    ensures IsJsonMessage(Logback.Event(message, Some(ms + extra)))
        <==> IsJsonMessage(Logback.Event(message, Some(ms))) || IsJsonMessage(Logback.Event(message, Some(extra)))
    ensures IsJsonMessage(Logback.Event(message, Some(ms + extra))) == IsJsonMessage(Logback.Event(message, Some(extra + ms)))
  {
    assert forall x :: x in ms + extra <==> x in ms || x in extra;
    assert forall x :: x in extra + ms <==> x in ms || x in extra;
  }

  /**
   * The write one chain node performs, if any: line separators write
   * nothing; the message is written under its key, null or not, from the
   * leaf message converter, as raw JSON when the event is marked; any
   * other node writes its own converted text only when its leaf has a key.
   */
  function Effect(n: Node, ctx: Context): (w: Option<Write>)
    ensures LeafConverter(n).LineSeparator? ==> w == None
    ensures !LeafConverter(n).Message? && JsonLineKey(LeafConverter(n), ctx.table) == None ==> w == None
    ensures LeafConverter(n).Message? ==> w.Some? && w.value.key == JsonLineKey(Message, ctx.table)
    ensures LeafConverter(n).Message? && IsJsonMessage(ctx.event) ==> w.value.value == Raw(ctx.event.message)
    ensures LeafConverter(n).Message? && !IsJsonMessage(ctx.event) ==> w.value.value == Str(ctx.event.message)
    ensures w.Some? && !LeafConverter(n).Message? ==>
      w.value.key.Some? && w.value.value == Str(Convert(n, ctx.event, ctx.env))
    ensures (!LeafConverter(n).LineSeparator? && !LeafConverter(n).Message? &&
             JsonLineKey(LeafConverter(n), ctx.table).Some?) ==>
      w == Some(Write(JsonLineKey(LeafConverter(n), ctx.table), Str(Convert(n, ctx.event, ctx.env))))
  {
    var leaf := LeafConverter(n);
    var key := JsonLineKey(leaf, ctx.table);
    if leaf.LineSeparator? then None
    else if leaf.Message? then
      var text := Convert(leaf, ctx.event, ctx.env);
      Some(Write(key, if IsJsonMessage(ctx.event) then Raw(text) else Str(text)))
    else if key.Some? then Some(Write(key, Str(Convert(n, ctx.event, ctx.env))))
    else None
  }

  /** Node `n` puts a value under key `k`. */
  predicate Writes(n: Node, ctx: Context, k: Option<string>)
  {
    Effect(n, ctx).Some? && Effect(n, ctx).value.key == k
  }

  /** Node `i` is the last node of the chain to put a value under `k`. */
  predicate LastWriter(chain: seq<Node>, ctx: Context, i: int, k: Option<string>)
  {
    && 0 <= i < |chain|
    && Writes(chain[i], ctx, k)
    && forall j :: i < j < |chain| ==> !Writes(chain[j], ctx, k)
  }

  /** The record after node `n`'s write (`HashMap.put`: add or overwrite one key). */
  function Apply(json: Record, n: Node, ctx: Context): (r: Record)
    ensures Effect(n, ctx).None? ==> r == json
    ensures Effect(n, ctx).Some? ==>
      r.Keys == json.Keys + {Effect(n, ctx).value.key} && r[Effect(n, ctx).value.key] == Effect(n, ctx).value.value
    ensures forall k :: k in json && !Writes(n, ctx, k) ==> k in r && r[k] == json[k]
  {
    match Effect(n, ctx)
    case None => json
    case Some(w) => json[w.key := w.value]
  }

  /**
   * The loop of `doJsonLayout`: every node of the chain, head first. The
   * loop writes strings and raw messages only, and the only key that can be
   * null is the message converter's.
   */
  function Build(chain: seq<Node>, ctx: Context): (json: Record)
    ensures forall k :: k in json ==> json[k].Str? || json[k].Raw?
    ensures forall k :: k in json && k != JsonLineKey(Message, ctx.table) ==> k.Some?
    decreases |chain|
  {
    if |chain| == 0 then map[]
    else Apply(Build(chain[..|chain| - 1], ctx), chain[|chain| - 1], ctx)
  }

  /** Extending the chain by one node applies that node's write to the record. */
  lemma BuildSnoc(chain: seq<Node>, n: Node, ctx: Context)
    ensures Build(chain + [n], ctx) == Apply(Build(chain, ctx), n, ctx)
  {
    assert (chain + [n])[..|chain|] == chain;
  }

  /** Extending the chain by a node that writes nothing leaves the record as it was. */
  lemma BuildSnocNone(chain: seq<Node>, n: Node, ctx: Context)
    requires Effect(n, ctx).None?
    ensures Build(chain + [n], ctx) == Build(chain, ctx)
  {
    BuildSnoc(chain, n, ctx);
  }

  /** A node followed by a silent one changes the record only by the first node's write. */
  lemma BuildSnocSilent(chain: seq<Node>, n: Node, silent: Node, ctx: Context)
    requires Effect(silent, ctx).None?
    ensures Build(chain + [n, silent], ctx) == Apply(Build(chain, ctx), n, ctx)
  {
    BuildSnoc(chain, n, ctx);
    BuildSnoc(chain + [n], silent, ctx);
    assert chain + [n, silent] == (chain + [n]) + [silent];
  }

  /** Every key of the record was written by some node of the chain. */
  lemma {:induction false} BuildKeysWritten(chain: seq<Node>, ctx: Context, k: Option<string>)
    requires k in Build(chain, ctx)
    ensures exists i :: 0 <= i < |chain| && Writes(chain[i], ctx, k)
    decreases |chain|
  {
    var prefix := chain[..|chain| - 1];
    if !Writes(chain[|chain| - 1], ctx, k) {
      BuildKeysWritten(prefix, ctx, k);
      var i :| 0 <= i < |prefix| && Writes(prefix[i], ctx, k);
      assert prefix[i] == chain[i];
    }
  }

  /** Every key some node writes ends up in the record. */
  lemma {:induction false} BuildHasEveryWrittenKey(chain: seq<Node>, ctx: Context, i: int, k: Option<string>)
    requires 0 <= i < |chain| && Writes(chain[i], ctx, k)
    ensures k in Build(chain, ctx)
    decreases |chain|
  {
    var prefix := chain[..|chain| - 1];
    if i < |chain| - 1 {
      assert prefix[i] == chain[i];
      BuildHasEveryWrittenKey(prefix, ctx, i, k);
    }
  }

  /** A repeated key keeps the value of the last node that writes it. */
  lemma {:induction false} BuildLastWriteWins(chain: seq<Node>, ctx: Context, i: int, k: Option<string>)
    requires LastWriter(chain, ctx, i, k)
    ensures k in Build(chain, ctx) && Build(chain, ctx)[k] == Effect(chain[i], ctx).value.value
    decreases |chain|
  {
    var prefix := chain[..|chain| - 1];
    if i < |chain| - 1 {
      assert !Writes(chain[|chain| - 1], ctx, k);
      assert prefix[i] == chain[i];
      assert forall j :: i < j < |prefix| ==> prefix[j] == chain[j];
      BuildLastWriteWins(prefix, ctx, i, k);
    }
  }

  /**
   * The message field: under the message converter's key, the event's own
   * message (whatever composite wraps the converter), embedded raw exactly
   * when the event is marked `JSON_MESSAGE`.
   */
  lemma MessageField(chain: seq<Node>, ctx: Context, i: int, k: Option<string>)
    requires LastWriter(chain, ctx, i, k) && LeafConverter(chain[i]).Message?
    ensures k == JsonLineKey(Message, ctx.table) && k in Build(chain, ctx)
    ensures Build(chain, ctx)[k].Raw? <==> IsJsonMessage(ctx.event)
    ensures Build(chain, ctx)[k] in {Raw(ctx.event.message), Str(ctx.event.message)}
  {
    BuildLastWriteWins(chain, ctx, i, k);
  }

  /** Taking out a node that writes nothing leaves every later record unchanged. */
  lemma {:induction false} DropSilentPrefix(chain: seq<Node>, ctx: Context, i: int, j: int)
    requires 0 <= i < j <= |chain| && Effect(chain[i], ctx).None?
    ensures Build(chain[..i] + chain[i + 1..j], ctx) == Build(chain[..j], ctx)
    decreases j
  {
    if j == i + 1 {
      assert chain[..i] + chain[i + 1..j] == chain[..i];
      assert chain[..j] == chain[..i] + [chain[i]];
      BuildSnocNone(chain[..i], chain[i], ctx);
    } else {
      DropSilentPrefix(chain, ctx, i, j - 1);
      var prev := chain[..i] + chain[i + 1..j - 1];
      assert chain[..i] + chain[i + 1..j] == prev + [chain[j - 1]];
      BuildSnoc(prev, chain[j - 1], ctx);
      assert chain[..j] == chain[..j - 1] + [chain[j - 1]];
      BuildSnoc(chain[..j - 1], chain[j - 1], ctx);
    }
  }

  /**
   * Line separators (and keyless non-message nodes) can be taken out of the
   * chain without changing the record.
   */
  lemma DropSilentNode(chain: seq<Node>, ctx: Context, i: int)
    requires 0 <= i < |chain|
    requires LeafConverter(chain[i]).LineSeparator?
          || (!LeafConverter(chain[i]).Message? && JsonLineKey(LeafConverter(chain[i]), ctx.table) == None)
    ensures Build(chain[..i] + chain[i + 1..], ctx) == Build(chain, ctx)
  {
    DropSilentPrefix(chain, ctx, i, |chain|);
    assert chain[..|chain|] == chain;
    assert chain[i + 1..|chain|] == chain[i + 1..];
  }

  /** The key of a stack trace. */
  const ThrowableKey: Option<string> := Some("throwable")

  /** A stack trace text made readable: tabs removed, then split into lines. */
  function StackTraceLines(s: string): (lines: seq<string>)
    ensures forall i :: 0 <= i < |lines| ==> '\t' !in lines[i] && '\n' !in lines[i]
  {
    Split(ReplaceAll(s, "\t", ""), '\n')
  }

  /**
   * Joined back with newlines, the lines give the tab-free trace up to its
   * trailing newlines.
   */
  lemma StackTraceLinesJoin(s: string)
    ensures exists k: nat :: ReplaceAll(s, "\t", "") == Join(StackTraceLines(s), '\n') + Repeat('\n', k)
  {
    SplitJoin(ReplaceAll(s, "\t", ""), '\n');
  }

  /**
   * The `throwable` post-pass: an empty trace is removed, a non-empty one is
   * replaced by its lines; a missing or non-string entry and every other key
   * are left alone.
   */
  function ReadableThrowable(json: Record): (r: Record)
    ensures ThrowableKey in json && json[ThrowableKey] == Str("") ==> ThrowableKey !in r
    ensures ThrowableKey in json && json[ThrowableKey].Str? && json[ThrowableKey].s != "" ==>
      ThrowableKey in r && r[ThrowableKey] == Arr(StackTraceLines(json[ThrowableKey].s))
    ensures !(ThrowableKey in json && json[ThrowableKey].Str?) ==> r == json
    ensures forall k :: k != ThrowableKey ==> (k in r <==> k in json)
    ensures forall k :: k != ThrowableKey && k in r ==> r[k] == json[k]
  {
    if ThrowableKey in json && json[ThrowableKey].Str? then
      var trace := json[ThrowableKey].s;
      if trace == "" then json - {ThrowableKey}
      else json[ThrowableKey := Arr(StackTraceLines(trace))]
    else json
  }

  /** The terminal escape character. */
  const Esc: char := 27 as char

  /** The SGR codes of logback's bold black and reset; no property depends on their text. */
  const BoldBlackCode: string := "1;30"
  const ResetCode: string := "0;"

  const BoldPrefix: string := [Esc] + "[" + BoldBlackCode + "m"
  const BoldSuffix: string := [Esc] + "[" + ResetCode + "m"

  /** `bold`: the text between the bold prefix and the reset suffix. */
  function Bold(s: string): (b: string)
    ensures |b| == |BoldPrefix| + |s| + |BoldSuffix|
    ensures b[..|BoldPrefix|] == BoldPrefix && b[|BoldPrefix|..|BoldPrefix| + |s|] == s
    ensures b[|BoldPrefix| + |s|..] == BoldSuffix
  {
    BoldPrefix + s + BoldSuffix
  }

  /** Bold texts differ when the texts differ. */
  lemma BoldInjective()
    ensures forall a, b :: Bold(a) == Bold(b) ==> a == b
  {
    forall a, b | Bold(a) == Bold(b)
      ensures a == b
    {
      assert a == Bold(a)[|BoldPrefix|..|BoldPrefix| + |a|];
      assert b == Bold(b)[|BoldPrefix|..|BoldPrefix| + |b|];
    }
  }

  /** How `String.format("%s", key)` prints a key: a null key prints as "null". */
  function KeyText(k: Option<string>): string
  {
    if k.Some? then k.value else "null"
  }

  /** The key an entry gets once highlighted. */
  function HighlightedKey(k: Option<string>): Option<string>
  {
    Some(Bold(KeyText(k)))
  }

  /** The named (non-null) keys in bold, each with its value. */
  function Named(json: Record): Record
  {
    BoldInjective();
    map k | k in json && k.Some? :: Some(Bold(k.value)) := json[k]
  }

  /** The bold named keys are the highlighted named keys. */
  lemma NamedKeys(json: Record)
    ensures Named(json).Keys == set k | k in json && k.Some? :: HighlightedKey(k)
  {
  }

  /** Each named key's value sits under its bold form. */
  lemma NamedValuesKept(json: Record)
    ensures forall s :: Some(s) in json ==> Some(Bold(s)) in Named(json) && Named(json)[Some(Bold(s))] == json[Some(s)]
  {
    BoldInjective();
  }

  /** The bold named keys hold no value the record did not. */
  lemma NamedValues(json: Record)
    ensures Named(json).Values <= json.Values
  {
  }

  /** The record with every key in bold: the named keys, then the null key if no "null" competes. */
  function Bolded(json: Record): Record
  {
    if None in json && Some("null") !in json then Named(json)[Some(Bold("null")) := json[None]]
    else Named(json)
  }

  /** The highlighted keys are those of the named keys plus, if present, the null key's. */
  lemma HighlightedImage(json: Record)
    ensures (set k | k in json :: HighlightedKey(k))
         == (set k | k in json && k.Some? :: HighlightedKey(k)) + (if None in json then {HighlightedKey(None)} else {})
  {
  }

  /** The bold record's keys are the highlighted keys of the record. */
  lemma BoldedKeys(json: Record)
    ensures Bolded(json).Keys == set k | k in json :: HighlightedKey(k)
  {
    NamedKeys(json);
    AddNullKey(Named(json), json);
  }

  /** Adding the null key's entry to the bold named keys gives every highlighted key. */
  lemma AddNullKey(named: Record, json: Record)
    requires named.Keys == set k | k in json && k.Some? :: HighlightedKey(k)
    ensures (if None in json && Some("null") !in json then named[Some(Bold("null")) := json[None]] else named).Keys
         == set k | k in json :: HighlightedKey(k)
  {
    HighlightedImage(json);
    if None in json && Some("null") in json {
      assert HighlightedKey(None) == HighlightedKey(Some("null"));
    }
  }

  /** The bold record keeps every named key's value under its bold form. */
  lemma BoldedNamedValues(json: Record)
    ensures forall s :: Some(s) in json ==> Bolded(json)[Some(Bold(s))] == json[Some(s)]
  {
    NamedValuesKept(json);
  }

  /** The bold record holds no value the record did not. */
  lemma BoldedValues(json: Record)
    ensures Bolded(json).Values <= json.Values
  {
    NamedValues(json);
  }

  /**
   * `highlightKeys`: every key wrapped in the bold prefix and suffix, values
   * kept. A null key and a key "null" both become bold "null"; the map
   * iteration visits the null key first, so the value under "null" is kept.
   */
  function HighlightKeys(json: Record): (h: Record)
    ensures h.Keys == set k | k in json :: HighlightedKey(k)
    ensures forall s :: Some(s) in json ==> h[Some(Bold(s))] == json[Some(s)]
    ensures None in json && Some("null") !in json ==> h[Some(Bold("null"))] == json[None]
    ensures h.Values <= json.Values
  {
    BoldedKeys(json);
    BoldedNamedValues(json);
    BoldedValues(json);
    Bolded(json)
  }

  /** Highlighting a set of keys that it does not merge yields as many keys. */
  lemma {:induction false} HighlightedKeysCount(keys: set<Option<string>>)
    requires forall x, y :: x in keys && y in keys && HighlightedKey(x) == HighlightedKey(y) ==> x == y
    ensures |set k | k in keys :: HighlightedKey(k)| == |keys|
    decreases |keys|
  {
    if keys != {} {
      var x :| x in keys;
      var rest := keys - {x};
      HighlightedKeysCount(rest);
      assert (set k | k in keys :: HighlightedKey(k)) == (set k | k in rest :: HighlightedKey(k)) + {HighlightedKey(x)};
      assert HighlightedKey(x) !in (set k | k in rest :: HighlightedKey(k));
    }
  }

  /** Highlighting keeps the `throwable` field under its bold key and never invents it. */
  lemma HighlightedThrowable(json: Record)
    ensures HighlightedKey(ThrowableKey) in HighlightKeys(json) <==> ThrowableKey in json
    ensures ThrowableKey in json ==> HighlightKeys(json)[HighlightedKey(ThrowableKey)] == json[ThrowableKey]
  {
    BoldInjective();
  }

  /** Highlighting merges no two keys of a set that lacks either the null key or "null". */
  lemma HighlightedKeyInjective(keys: set<Option<string>>)
    requires !(None in keys && Some("null") in keys)
    ensures forall x, y :: x in keys && y in keys && HighlightedKey(x) == HighlightedKey(y) ==> x == y
  {
    BoldInjective();
    forall x, y | x in keys && y in keys && HighlightedKey(x) == HighlightedKey(y)
      ensures x == y
    {
      assert KeyText(x) == KeyText(y);
    }
  }

  /** Without both a null key and a key "null", highlighting keeps the number of entries. */
  lemma HighlightKeysSizeDistinct(json: Record)
    requires !(None in json && Some("null") in json)
    ensures |HighlightKeys(json)| == |json|
  {
    var h := HighlightKeys(json);
    assert h.Keys == set k | k in json.Keys :: HighlightedKey(k);
    HighlightedKeyInjective(json.Keys);
    HighlightedKeysCount(json.Keys);
    assert |h| == |h.Keys|;
    assert |json| == |json.Keys|;
  }

  /** With both a null key and a key "null", the null key adds no highlighted key of its own. */
  lemma MergedImage(json: Record)
    requires None in json && Some("null") in json
    ensures (set k | k in json :: HighlightedKey(k)) == set k | k in json.Keys - {None} :: HighlightedKey(k)
  {
    assert HighlightedKey(None) == HighlightedKey(Some("null"));
  }

  /** A null key and a key "null" merge into one entry when highlighted. */
  lemma HighlightKeysSizeMerged(json: Record)
    requires None in json && Some("null") in json
    ensures |HighlightKeys(json)| == |json| - 1
  {
    var rest := json.Keys - {None};
    MergedImage(json);
    HighlightedKeyInjective(rest);
    HighlightedKeysCount(rest);
    assert |HighlightKeys(json)| == |HighlightKeys(json).Keys|;
    assert |json| == |json.Keys|;
  }
}

=== FILE: key_table.dfy ===
/**
 * The process-wide table from converter class name to JSON key, filled from
 * the keywords of logback's converter map as layouts start.
 */
module KeyTable {

  /** Converter class name to the keyword used as its JSON key. */
  type Table = map<string, string>

  /** One keyword of the converter map with the converter class it selects. */
  datatype Entry = Entry(keyword: string, kind: string)

  /** The longer of two labels; on equal length the second one. */
  function Longer(a: string, b: string): (r: string)
    ensures r == a || r == b
    ensures |r| >= |a| && |r| >= |b|
    ensures |a| == |b| ==> r == b
  {
    if |a| > |b| then a else b
  }

  /**
   * One step of the merge: `putIfAbsent(kind, keyword)` followed by
   * `computeIfPresent(kind, (_, v) -> longer(v, keyword))`.
   */
  function Register(t: Table, e: Entry): (t': Table)
    ensures t'.Keys == t.Keys + {e.kind}
    ensures e.kind !in t ==> t'[e.kind] == e.keyword
    ensures e.kind in t && |t[e.kind]| > |e.keyword| ==> t'[e.kind] == t[e.kind]
    ensures e.kind in t && |t[e.kind]| <= |e.keyword| ==> t'[e.kind] == e.keyword
    ensures forall k :: k in t && k != e.kind ==> t'[k] == t[k]
  {
    var claimed := if e.kind in t then t else t[e.kind := e.keyword];
    claimed[e.kind := Longer(claimed[e.kind], e.keyword)]
  }

  /** The converter classes the entries mention. */
  function Kinds(entries: seq<Entry>): (ks: set<string>)
    ensures forall i :: 0 <= i < |entries| ==> entries[i].kind in ks
    ensures forall k :: k in ks ==> exists i :: 0 <= i < |entries| && entries[i].kind == k
    decreases |entries|
  {
    if |entries| == 0 then {}
    else
      var rest := Kinds(entries[1..]);
      assert forall i :: 0 <= i < |entries| - 1 ==> entries[1..][i] == entries[i + 1];
      {entries[0].kind} + rest
  }

  /** The merge of every entry of the converter map, in iteration order. */
  function RegisterAll(t: Table, entries: seq<Entry>): (t': Table)
    ensures t'.Keys == t.Keys + Kinds(entries)
    decreases |entries|
  {
    if |entries| == 0 then t else RegisterAll(Register(t, entries[0]), entries[1..])
  }

  /** A kind is registered for `kw` by some entry. */
  predicate Registers(entries: seq<Entry>, kind: string, kw: string)
  {
    exists i :: 0 <= i < |entries| && entries[i] == Entry(kw, kind)
  }

  /** No entry is ever removed and no result ever gets shorter. */
  lemma {:induction false} RegisterAllGrows(t: Table, entries: seq<Entry>, k: string)
    requires k in t
    ensures k in RegisterAll(t, entries) && |RegisterAll(t, entries)[k]| >= |t[k]|
    decreases |entries|
  {
    if |entries| > 0 {
      RegisterAllGrows(Register(t, entries[0]), entries[1..], k);
    }
  }

  /** A kind no entry mentions keeps its result (or its absence). */
  lemma {:induction false} RegisterAllUntouched(t: Table, entries: seq<Entry>, k: string)
    requires k !in Kinds(entries)
    ensures k in RegisterAll(t, entries) <==> k in t
    ensures k in t ==> RegisterAll(t, entries)[k] == t[k]
    decreases |entries|
  {
    if |entries| > 0 {
      RegisterAllUntouched(Register(t, entries[0]), entries[1..], k);
    }
  }

  /**
   * After the merge, a kind's result is at least as long as every keyword
   * registered for that kind.
   */
  lemma {:induction false} RegisterAllCovers(t: Table, entries: seq<Entry>, kind: string, kw: string)
    requires Registers(entries, kind, kw)
    ensures kind in RegisterAll(t, entries) && |RegisterAll(t, entries)[kind]| >= |kw|
    decreases |entries|
  {
    var i :| 0 <= i < |entries| && entries[i] == Entry(kw, kind);
    if i == 0 {
      RegisterAllGrows(Register(t, entries[0]), entries[1..], kind);
    } else {
      assert entries[1..][i - 1] == Entry(kw, kind);
      RegisterAllCovers(Register(t, entries[0]), entries[1..], kind, kw);
    }
  }

  /**
   * After the merge, a kind's result is its earlier result or one of the
   * keywords registered for it: the merge invents nothing.
   */
  lemma {:induction false} RegisterAllOrigin(t: Table, entries: seq<Entry>, kind: string)
    requires kind in RegisterAll(t, entries)
    ensures (kind in t && RegisterAll(t, entries)[kind] == t[kind])
         || Registers(entries, kind, RegisterAll(t, entries)[kind])
    decreases |entries|
  {
    if |entries| > 0 {
      var t1 := Register(t, entries[0]);
      var result := RegisterAll(t, entries)[kind];
      RegisterAllOrigin(t1, entries[1..], kind);
      if Registers(entries[1..], kind, result) {
        var j :| 0 <= j < |entries[1..]| && entries[1..][j] == Entry(result, kind);
        assert entries[j + 1] == Entry(result, kind);
      } else if kind == entries[0].kind && t1[kind] == entries[0].keyword {
        assert entries[0] == Entry(result, kind);
      }
    }
  }

  /**
   * When one keyword is strictly longer than every other candidate for its
   * kind (the earlier result and the other registered keywords), the merge
   * ends on that keyword whatever the order of the entries.
   */
  lemma LongestKeywordWins(t: Table, entries: seq<Entry>, kind: string, w: string)
    requires Registers(entries, kind, w)
    requires kind in t ==> t[kind] == w || |t[kind]| < |w|
    requires forall i :: 0 <= i < |entries| && entries[i].kind == kind ==> entries[i].keyword == w || |entries[i].keyword| < |w|
    ensures RegisterAll(t, entries)[kind] == w
  {
    RegisterAllCovers(t, entries, kind, w);
    RegisterAllOrigin(t, entries, kind);
  }

  /** The longer of two keywords for one kind wins in either order. */
  lemma LongerKeywordEitherOrder(t: Table, kind: string, a: string, b: string)
    requires |a| > |b|
    requires kind in t ==> |t[kind]| < |a|
    ensures RegisterAll(t, [Entry(a, kind), Entry(b, kind)])[kind] == a
    ensures RegisterAll(t, [Entry(b, kind), Entry(a, kind)])[kind] == a
  {
    assert [Entry(a, kind), Entry(b, kind)][0] == Entry(a, kind);
    assert [Entry(b, kind), Entry(a, kind)][1] == Entry(a, kind);
    LongestKeywordWins(t, [Entry(a, kind), Entry(b, kind)], kind, a);
    LongestKeywordWins(t, [Entry(b, kind), Entry(a, kind)], kind, a);
  }

  /**
   * Two keywords of equal length for one kind, neither shorter than the
   * earlier result: the one merged last wins, so the outcome depends on the
   * iteration order (logback's "exception" and "throwable" are such a pair).
   */
  lemma EqualLengthTieIsOrderDependent(t: Table, kind: string, a: string, b: string)
    requires |a| == |b|
    requires kind in t ==> |t[kind]| <= |a|
    ensures RegisterAll(t, [Entry(a, kind), Entry(b, kind)])[kind] == b
    ensures RegisterAll(t, [Entry(b, kind), Entry(a, kind)])[kind] == a
  {
    var ta := Register(t, Entry(a, kind));
    assert [Entry(a, kind), Entry(b, kind)][1..] == [Entry(b, kind)];
    assert RegisterAll(ta, [Entry(b, kind)]) == RegisterAll(Register(ta, Entry(b, kind)), []);
    var tb := Register(t, Entry(b, kind));
    assert [Entry(b, kind), Entry(a, kind)][1..] == [Entry(a, kind)];
    assert RegisterAll(tb, [Entry(a, kind)]) == RegisterAll(Register(tb, Entry(a, kind)), []);
  }
}

=== FILE: layout.dfy ===
/**
 * The layout itself: `start` (empty-pattern guard, key-table merge) and
 * `doLayout` (record, serialisation, escape correction, newline).
 */
module Layout {
  import opened Options
  import opened JavaStrings
  import KeyTable
  import opened Converters
  import opened JsonRecord

  /** A diagnostic that `start` reports instead of failing. */
  datatype Status = EmptyPattern | ParseFailure(pattern: string)

  /** A layout: the `prettyPrint` setting and the compiled chain (empty while `head` is null). */
  datatype Layout = Layout(prettyPrint: bool, head: seq<Node>)

  /**
   * What `start` leaves behind: the layout, the shared key table, the
   * reported diagnostics, and whether `start` itself ended by throwing.
   */
  datatype Started = Started(layout: Layout, table: KeyTable.Table, errors: seq<Status>, threw: bool)

  /**
   * `start`. `hasContext` says whether the layout has a logback context;
   * `compiled` is the chain logback's parser builds for the pattern, `None`
   * when parsing throws; `converterMap` is the effective converter map in
   * iteration order. An empty or missing pattern stops at once. A parse
   * failure is reported through the context's status manager, so without a
   * context the handler itself throws (a null dereference) and the merge is
   * never reached; in every other case the key table is merged, whether or
   * not parsing succeeded.
   */
  function Start(pattern: Option<string>, prettyPrint: bool, hasContext: bool, compiled: Option<seq<Node>>,
                 converterMap: seq<KeyTable.Entry>, table: KeyTable.Table): (s: Started)
    ensures s.layout.prettyPrint == prettyPrint
    ensures pattern.None? || pattern.value == "" ==>
      s.layout.head == [] && s.table == table && s.errors == [EmptyPattern] && !s.threw
    ensures pattern.Some? && pattern.value != "" && compiled.None? && !hasContext ==>
      s.threw && s.layout.head == [] && s.table == table && s.errors == []
    ensures pattern.Some? && pattern.value != "" && (compiled.Some? || hasContext) ==>
      !s.threw && s.table == KeyTable.RegisterAll(table, converterMap)
    ensures pattern.Some? && pattern.value != "" && compiled.None? && hasContext ==>
      s.layout.head == [] && s.errors == [ParseFailure(pattern.value)]
    ensures pattern.Some? && pattern.value != "" && compiled.Some? ==>
      s.layout.head == compiled.value && s.errors == []
  {
    if pattern.None? || pattern.value == "" then
      Started(Layout(prettyPrint, []), table, [EmptyPattern], false)
    else if compiled.None? && !hasContext then
      Started(Layout(prettyPrint, []), table, [], true)
    else
      var head := if compiled.Some? then compiled.value else [];
      var errors := if compiled.Some? then [] else [ParseFailure(pattern.value)];
      Started(Layout(prettyPrint, head), KeyTable.RegisterAll(table, converterMap), errors, false)
  }

  /**
   * After a start with a pattern that parses, or that fails to parse with a
   * context present, every keyword of the converter map has a key at least as
   * long as itself in the table.
   */
  lemma StartCoversConverterMap(pattern: string, prettyPrint: bool, hasContext: bool, compiled: Option<seq<Node>>,
                                converterMap: seq<KeyTable.Entry>, table: KeyTable.Table, i: int)
    requires pattern != "" && (compiled.Some? || hasContext) && 0 <= i < |converterMap|
    ensures var t := Start(Some(pattern), prettyPrint, hasContext, compiled, converterMap, table).table;
      converterMap[i].kind in t && |t[converterMap[i].kind]| >= |converterMap[i].keyword|
  {
    KeyTable.RegisterAllCovers(table, converterMap, converterMap[i].kind, converterMap[i].keyword);
  }

  /**
   * `doJsonLayout`: build the record, make the stack trace readable, and
   * highlight the keys in pretty mode only.
   */
  function DoJsonLayout(layout: Layout, ctx: Context): (json: Record)
    ensures layout.head == [] ==> json == map[]
    ensures !layout.prettyPrint ==> json.Keys <= Build(layout.head, ctx).Keys
    ensures !layout.prettyPrint ==> forall k :: k != ThrowableKey ==>
      (k in json <==> k in Build(layout.head, ctx)) && (k in json ==> json[k] == Build(layout.head, ctx)[k])
    ensures layout.prettyPrint ==> forall k :: k in json ==>
      k.Some? && StartsWith(k.value, BoldPrefix)
    ensures layout.prettyPrint ==> forall s :: Some(s) in Build(layout.head, ctx) && Some(s) != ThrowableKey ==>
      Some(Bold(s)) in json && json[Some(Bold(s))] == Build(layout.head, ctx)[Some(s)]
    ensures layout.prettyPrint ==>
      json.Keys == set k | k in ReadableThrowable(Build(layout.head, ctx)) :: HighlightedKey(k)
    ensures layout.prettyPrint ==> json.Values <= ReadableThrowable(Build(layout.head, ctx)).Values
    ensures layout.prettyPrint && None in Build(layout.head, ctx) && Some("null") !in Build(layout.head, ctx) ==>
      HighlightedKey(None) in json && json[HighlightedKey(None)] == Build(layout.head, ctx)[None]
    ensures var b := Build(layout.head, ctx);
      var tk := if layout.prettyPrint then HighlightedKey(ThrowableKey) else ThrowableKey;
      && (ThrowableKey !in b ==> tk !in json)
      && (ThrowableKey in b && b[ThrowableKey] == Str("") ==> tk !in json)
      && (ThrowableKey in b && b[ThrowableKey].Str? && b[ThrowableKey].s != "" ==>
            tk in json && json[tk] == Arr(StackTraceLines(b[ThrowableKey].s)))
      && (ThrowableKey in b && !b[ThrowableKey].Str? ==> tk in json && json[tk] == b[ThrowableKey])
  {
    var json := ReadableThrowable(Build(layout.head, ctx));
    if layout.prettyPrint then
      HighlightedThrowable(json);
      HighlightKeys(json)
    else json
  }

  /** The six characters `\u001B` with which Jackson escapes the escape character. */
  const EscapedEsc: string := "\\u001B"

  /**
   * How Jackson writes the escape character inside a JSON string. Only this
   * one character is escaped here; Jackson's other escapes (a backslash as
   * two backslashes, quotes, other control characters) are not modelled.
   */
  function Escape(s: string): string
  {
    ReplaceAll(s, [Esc], EscapedEsc)
  }

  /**
   * `unescape`: every `\u001B` sequence becomes the escape character again,
   * and none is left.
   */
  function Unescape(s: string): (r: string)
    ensures !Contains(r, EscapedEsc)
    ensures Esc !in s ==> Escape(r) == s
  {
    UnescapeFacts(s);
    ReplaceAll(s, EscapedEsc, [Esc])
  }

  /** The replacement `unescape` performs removes the sequence and is undone by escaping. */
  lemma UnescapeFacts(s: string)
    ensures !Contains(ReplaceAll(s, EscapedEsc, [Esc]), EscapedEsc)
    ensures Esc !in s ==> Escape(ReplaceAll(s, EscapedEsc, [Esc])) == s
  {
    ReplaceAllRemovesPattern(s, EscapedEsc, Esc);
    if Esc !in s {
      ReplaceAllRoundTrip(s, EscapedEsc, Esc);
    }
  }

  /** Unescaping undoes the escaping of the escape character for text free of the six-character sequence. */
  lemma UnescapeEscape(s: string)
    requires !Contains(s, EscapedEsc)
    ensures Unescape(Escape(s)) == s
  {
    ReplaceAllRoundTripBack(s, EscapedEsc, Esc);
  }

  /**
   * The text Jackson's `writeValueAsString` produces for the record in the
   * layout's mode, `None` when it throws (for instance on a null key).
   */
  function Serialised(layout: Layout, ctx: Context, write: (Record, bool) -> Option<string>): Option<string>
  {
    write(DoJsonLayout(layout, ctx), layout.prettyPrint)
  }

  /**
   * `doLayout`: serialise the record with the writer the mode selects
   * (`write`), correct the escapes in both modes, and append one newline.
   * When the writer throws, so does `doLayout`: no line is produced.
   */
  function DoLayout(layout: Layout, ctx: Context, write: (Record, bool) -> Option<string>): (line: Option<string>)
    ensures line.Some? <==> Serialised(layout, ctx, write).Some?
    ensures line.Some? ==> |line.value| > 0 && line.value[|line.value| - 1] == '\n'
    ensures line.Some? ==> !Contains(line.value[..|line.value| - 1], EscapedEsc)
    ensures line.Some? && Esc !in Serialised(layout, ctx, write).value ==>
      Escape(line.value[..|line.value| - 1]) == Serialised(layout, ctx, write).value
  {
    match Serialised(layout, ctx, write)
    case None => None
    case Some(written) =>
      var text := Unescape(written);
      assert (text + "\n")[..|text|] == text;
      Some(text + "\n")
  }
}

=== FILE: logback.dfy ===
/** The part of a logback logging event that the layout reads itself. */
module Logback {
  import opened Options

  /**
   * A logging event: its formatted message and its marker list, each marker
   * given by its name (markers compare by name). `markers` is `None` when the
   * event carries no list at all. Every other field (level, logger, thread,
   * throwable, ...) reaches the layout only through a converter.
   */
  datatype Event = Event(message: string, markers: Option<seq<string>>)
}

=== FILE: open_telemetry.dfy ===
/**
 * The `%otel{spanId}` / `%otel{traceId}` extension converter: it prints an
 * identifier of the current tracing span and names its own JSON key.
 */
module OpenTelemetry {
  import Logback

  /** The identifiers of the span that is current when an event is converted. */
  datatype SpanContext = SpanContext(traceId: string, spanId: string)

  /** The supplier that `start` picks from the first option. */
  datatype Supplier = SpanIdSupplier | TraceIdSupplier | EmptySupplier

  /** A started converter: its first option and the supplier chosen for it. */
  datatype Converter = Converter(firstOption: string, supplier: Supplier)

  const SpanIdOption: string := "spanId"
  const TraceIdOption: string := "traceId"

  /**
   * `start`: look the first option up among the two known suppliers and fall
   * back to the one that yields the empty string.
   */
  function Start(firstOption: string): (c: Converter)
    ensures c.firstOption == firstOption
    ensures c.supplier == SpanIdSupplier <==> firstOption == SpanIdOption
    ensures c.supplier == TraceIdSupplier <==> firstOption == TraceIdOption
  {
    var supplier :=
      if firstOption == SpanIdOption then SpanIdSupplier
      else if firstOption == TraceIdOption then TraceIdSupplier
      else EmptySupplier;
    Converter(firstOption, supplier)
  }

  /**
   * `convert`: ask the chosen supplier; the event itself is not consulted.
   * The text is an identifier of the current span or nothing.
   */
  function Convert(c: Converter, event: Logback.Event, span: SpanContext): (text: string)
    ensures text in {span.spanId, span.traceId, ""}
    ensures c.supplier == EmptySupplier ==> text == ""
  {
    match c.supplier
    case SpanIdSupplier => span.spanId
    case TraceIdSupplier => span.traceId
    case EmptySupplier => ""
  }

  /** `key`: the converter names its JSON field after its first option. */
  function Key(c: Converter): string
  {
    c.firstOption
  }

  /**
   * What a converter started with `option` prints and under which key:
   * the span id for "spanId", the trace id for "traceId", "" for anything
   * else, always keyed by the option text itself.
   */
  lemma StartThenConvert(option: string, event: Logback.Event, span: SpanContext)
    ensures Key(Start(option)) == option
    ensures option == SpanIdOption ==> Convert(Start(option), event, span) == span.spanId
    ensures option == TraceIdOption ==> Convert(Start(option), event, span) == span.traceId
    ensures option != SpanIdOption && option != TraceIdOption ==> Convert(Start(option), event, span) == ""
  {
  }

  /** The output depends on the supplier and the current span, never on the event. */
  lemma ConvertIgnoresEvent(c: Converter, e1: Logback.Event, e2: Logback.Event, span: SpanContext)
    ensures Convert(c, e1, span) == Convert(c, e2, span)
  {
  }
}

=== FILE: options.dfy ===
/** Optional values, standing in for Java's nullable references. */
module Options {

  /** `None` plays the part of Java's `null`. */
  datatype Option<+T> = None | Some(value: T)

  /** `java.util.Map.get`: the value stored under `k`, or `None` (null) when there is none. */
  function Get<K, V>(m: map<K, V>, k: K): (r: Option<V>)
    ensures r.Some? <==> k in m
    ensures r.Some? ==> r.value == m[k]
  {
    if k in m then Some(m[k]) else None
  }
}

=== FILE: scenarios.dfy ===
/** Worked examples of the layout, traced through the model. */
module Scenarios {
  import opened Options
  import opened JavaStrings
  import Logback
  import KeyTable
  import opened Converters
  import opened JsonRecord
  import opened Layout

  const LevelClass: string := "ch.qos.logback.classic.pattern.LevelConverter"
  const LoggerClass: string := "ch.qos.logback.classic.pattern.LoggerConverter"

  /** The chain compiled from `%level %logger %msg%n`. */
  const LevelLoggerMessage: seq<Node> :=
    [Leaf(LevelClass, []), Literal(" "), Leaf(LoggerClass, []), Literal(" "), Message, LineSeparator]

  /**
   * An entry of logback's converter map: a keyword of the level, logger or
   * message converter is one of logback's keywords for it, and no keyword
   * selects the literal converter. Entries of every other class are allowed.
   */
  predicate StandardEntry(e: KeyTable.Entry)
  {
    && e.kind != LiteralClass
    && (e.kind == LevelClass ==> e.keyword in {"p", "le", "level"})
    && (e.kind == LoggerClass ==> e.keyword in {"c", "lo", "logger"})
    && (e.kind == MessageClass ==> e.keyword in {"m", "msg", "message"})
  }

  /**
   * A table giving the level, logger and message converters their longest
   * keywords and the literal converter no key; other classes are unconstrained.
   */
  predicate StandardKeys(t: KeyTable.Table)
  {
    && LevelClass in t && t[LevelClass] == "level"
    && LoggerClass in t && t[LoggerClass] == "logger"
    && MessageClass in t && t[MessageClass] == "message"
    && LiteralClass !in t
  }

  /** Removing tabs from tab-free text around one tab drops just that tab. */
  lemma StripOneTab(before: string, after: string)
    requires '\t' !in before && '\t' !in after
    ensures ReplaceAll(before + (['\t'] + after), "\t", "") == before + after
  {
    ReplaceAbsentChar(before, '\t', "");
    ReplaceAbsentChar(after, '\t', "");
    ReplaceLeadingChar('\t', after, "");
    ReplaceCharConcat(before, ['\t'] + after, '\t', "");
    assert ReplaceAll(['\t'] + after, "\t", "") == after;
    assert ReplaceAll(before + (['\t'] + after), "\t", "")
        == ReplaceAll(before, "\t", "") + ReplaceAll(['\t'] + after, "\t", "");
  }

  /** Removing tabs from a two-line trace leaves the two lines and their newlines. */
  lemma StripTabsTwoLines(first: string, second: string)
    requires '\t' !in first && '\t' !in second
    ensures ReplaceAll(first + "\n\t" + second + "\n", "\t", "") == first + "\n" + second + "\n"
  {
    StripOneTab(first + "\n", second + "\n");
    assert first + "\n\t" + second + "\n" == (first + "\n") + (['\t'] + (second + "\n"));
    assert first + "\n" + second + "\n" == (first + "\n") + (second + "\n");
  }

  /** Cutting two newline-terminated lines at newlines gives them and one empty piece. */
  lemma PiecesTwoLines(first: string, second: string)
    requires '\n' !in first && '\n' !in second
    ensures Pieces(first + "\n" + second + "\n", '\n') == [first, second, ""]
  {
    assert Pieces("", '\n') == [""];
    PiecesFirst(second, '\n', "");
    assert second + ['\n'] + "" == second + "\n";
    PiecesFirst(first, '\n', second + "\n");
    assert first + "\n" + second + "\n" == first + ['\n'] + (second + "\n");
  }

  /** Logback's keywords for one converter are its longest keyword `kw` or shorter ones. */
  predicate FitsUnder(entries: seq<KeyTable.Entry>, kind: string, kw: string)
  {
    forall i :: 0 <= i < |entries| && entries[i].kind == kind ==>
      entries[i].keyword == kw || |entries[i].keyword| < |kw|
  }

  /** One of logback's keywords is its kind's longest keyword or shorter. */
  lemma EntryFits(e: KeyTable.Entry)
    requires StandardEntry(e)
    ensures e.kind == LevelClass ==> e.keyword == "level" || |e.keyword| < 5
    ensures e.kind == LoggerClass ==> e.keyword == "logger" || |e.keyword| < 6
    ensures e.kind == MessageClass ==> e.keyword == "message" || |e.keyword| < 7
  {
  }

  /** Each of the three kinds' keywords is its longest one or shorter. */
  lemma StandardEntriesFit(entries: seq<KeyTable.Entry>)
    requires forall i :: 0 <= i < |entries| ==> StandardEntry(entries[i])
    ensures FitsUnder(entries, LevelClass, "level")
    ensures FitsUnder(entries, LoggerClass, "logger")
    ensures FitsUnder(entries, MessageClass, "message")
  {
    forall i | 0 <= i < |entries|
      ensures entries[i].kind == LevelClass ==> entries[i].keyword == "level" || |entries[i].keyword| < 5
      ensures entries[i].kind == LoggerClass ==> entries[i].keyword == "logger" || |entries[i].keyword| < 6
      ensures entries[i].kind == MessageClass ==> entries[i].keyword == "message" || |entries[i].keyword| < 7
    {
      EntryFits(entries[i]);
    }
  }

  /** No standard entry selects the literal converter. */
  lemma NoLiteralKind(entries: seq<KeyTable.Entry>)
    requires forall i :: 0 <= i < |entries| ==> StandardEntry(entries[i])
    ensures LiteralClass !in KeyTable.Kinds(entries)
  {
  }

  /**
   * A converter map as logback's: every entry standard, and the longest
   * keyword of each of the three converters present. Any number of entries
   * for other converters may come in between, in any order.
   */
  predicate StandardConverterMap(entries: seq<KeyTable.Entry>)
  {
    && (forall i :: 0 <= i < |entries| ==> StandardEntry(entries[i]))
    && KeyTable.Registers(entries, LevelClass, "level")
    && KeyTable.Registers(entries, LoggerClass, "logger")
    && KeyTable.Registers(entries, MessageClass, "message")
  }

  /**
   * Merging logback's converter map into an empty table, in any iteration
   * order, gives the level, logger and message converters their longest
   * keywords and the literal converter no key.
   */
  lemma StandardKeyTable(entries: seq<KeyTable.Entry>)
    requires StandardConverterMap(entries)
    ensures StandardKeys(KeyTable.RegisterAll(map[], entries))
  {
    StandardEntriesFit(entries);
    KeyTable.LongestKeywordWins(map[], entries, LevelClass, "level");
    KeyTable.LongestKeywordWins(map[], entries, LoggerClass, "logger");
    KeyTable.LongestKeywordWins(map[], entries, MessageClass, "message");
    NoLiteralKind(entries);
    KeyTable.RegisterAllUntouched(map[], entries, LiteralClass);
  }

  /**
   * A two-line trace whose second line is tab-indented becomes its two lines,
   * without the tab and without a trailing empty line.
   */
  lemma TwoLineTrace(first: string, second: string)
    requires '\t' !in first && '\n' !in first
    requires '\t' !in second && '\n' !in second && second != ""
    ensures StackTraceLines(first + "\n\t" + second + "\n") == [first, second]
  {
    StripTabsTwoLines(first, second);
    PiecesTwoLines(first, second);
    var stripped := first + "\n" + second + "\n";
    assert |stripped| > 0;
    var p := [first, second, ""];
    assert p[..|p| - 1] == [first, second];
    assert TrimTrailingEmpty([first, second]) == [first, second];
    assert TrimTrailingEmpty(p) == [first, second];
    assert Split(stripped, '\n') == [first, second];
  }

  /** A worked example: `line1\n\tline2\n` becomes `["line1", "line2"]`. */
  lemma StackTraceScenario()
    ensures StackTraceLines("line1\n\tline2\n") == ["line1", "line2"]
  {
    var first, second := "line1", "line2";
    assert '\t' !in first && '\n' !in first && '\t' !in second && '\n' !in second;
    TwoLineTrace(first, second);
    assert first + "\n\t" + second + "\n" == "line1\n\tline2\n";
  }

  /** The write each node of `%level %logger %msg%n` performs under the standard keys. */
  lemma LevelLoggerMessageEffects(t: KeyTable.Table, e: Logback.Event, env: Env, level: string, logger: string)
    requires StandardKeys(t)
    requires env.leaf(LevelClass, [], e) == level && env.leaf(LoggerClass, [], e) == logger
    ensures Effect(LevelLoggerMessage[0], Context(e, t, env)) == Some(Write(Some("level"), Str(level)))
    ensures Effect(LevelLoggerMessage[1], Context(e, t, env)) == None
    ensures Effect(LevelLoggerMessage[2], Context(e, t, env)) == Some(Write(Some("logger"), Str(logger)))
    ensures Effect(LevelLoggerMessage[3], Context(e, t, env)) == None
    ensures Effect(LevelLoggerMessage[4], Context(e, t, env))
         == Some(Write(Some("message"), if IsJsonMessage(e) then Raw(e.message) else Str(e.message)))
    ensures Effect(LevelLoggerMessage[5], Context(e, t, env)) == None
  {
  }

  /** `%level ` writes the level. */
  lemma LevelStep(t: KeyTable.Table, e: Logback.Event, env: Env, level: string, logger: string)
    requires StandardKeys(t)
    requires env.leaf(LevelClass, [], e) == level && env.leaf(LoggerClass, [], e) == logger
    ensures Build(LevelLoggerMessage[..2], Context(e, t, env)) == map[Some("level") := Str(level)]
  {
    var c := LevelLoggerMessage;
    LevelLoggerMessageEffects(t, e, env, level, logger);
    BuildSnocSilent([], c[0], c[1], Context(e, t, env));
    assert c[..2] == [] + [c[0], c[1]];
  }

  /** `%logger ` adds the logger. */
  lemma LoggerStep(t: KeyTable.Table, e: Logback.Event, env: Env, level: string, logger: string)
    requires StandardKeys(t)
    requires env.leaf(LevelClass, [], e) == level && env.leaf(LoggerClass, [], e) == logger
    ensures Build(LevelLoggerMessage[..4], Context(e, t, env))
         == map[Some("level") := Str(level), Some("logger") := Str(logger)]
  {
    var c := LevelLoggerMessage;
    LevelLoggerMessageEffects(t, e, env, level, logger);
    LevelStep(t, e, env, level, logger);
    BuildSnocSilent(c[..2], c[2], c[3], Context(e, t, env));
    assert c[..4] == c[..2] + [c[2], c[3]];
  }

  /** `%msg%n` adds the message. */
  lemma MessageStep(t: KeyTable.Table, e: Logback.Event, env: Env, level: string, logger: string)
    requires StandardKeys(t)
    requires env.leaf(LevelClass, [], e) == level && env.leaf(LoggerClass, [], e) == logger
    ensures Build(LevelLoggerMessage, Context(e, t, env))
         == map[Some("level") := Str(level), Some("logger") := Str(logger),
                Some("message") := if IsJsonMessage(e) then Raw(e.message) else Str(e.message)]
  {
    var c := LevelLoggerMessage;
    LevelLoggerMessageEffects(t, e, env, level, logger);
    LoggerStep(t, e, env, level, logger);
    BuildSnocSilent(c[..4], c[4], c[5], Context(e, t, env));
    assert c == c[..4] + [c[4], c[5]];
  }

  /**
   * `%level %logger %msg%n` rendered with the standard keys: the event's
   * level, logger and message under their keys, the message as a string or
   * as raw JSON according to the marker, nothing for the literals or the
   * line separator.
   */
  lemma LevelLoggerMessageRecord(t: KeyTable.Table, e: Logback.Event, env: Env, level: string, logger: string)
    requires StandardKeys(t)
    requires env.leaf(LevelClass, [], e) == level && env.leaf(LoggerClass, [], e) == logger
    ensures DoJsonLayout(Layout(false, LevelLoggerMessage), Context(e, t, env))
         == map[Some("level") := Str(level), Some("logger") := Str(logger),
                Some("message") := if IsJsonMessage(e) then Raw(e.message) else Str(e.message)]
  {
    MessageStep(t, e, env, level, logger);
    var json := Build(LevelLoggerMessage, Context(e, t, env));
    assert ThrowableKey !in json;
    assert ReadableThrowable(json) == json;
  }

  /**
   * `%level %logger %msg%n` on an unmarked INFO event from "demo", with the
   * key table merged from logback's keywords in any order: three string
   * fields.
   */
  lemma PlainMessageScenario(entries: seq<KeyTable.Entry>, env: Env)
    requires StandardConverterMap(entries)
    requires env.leaf(LevelClass, [], Logback.Event("Hello world!", None)) == "INFO"
    requires env.leaf(LoggerClass, [], Logback.Event("Hello world!", None)) == "demo"
    ensures DoJsonLayout(Layout(false, LevelLoggerMessage),
                         Context(Logback.Event("Hello world!", None), KeyTable.RegisterAll(map[], entries), env))
         == map[Some("level") := Str("INFO"), Some("logger") := Str("demo"), Some("message") := Str("Hello world!")]
  {
    var t := KeyTable.RegisterAll(map[], entries);
    StandardKeyTable(entries);
    LevelLoggerMessageRecord(t, Logback.Event("Hello world!", None), env, "INFO", "demo");
  }

  /**
   * The same pattern and table on an event marked `JSON_MESSAGE`: the
   * message is embedded as raw JSON rather than as a string.
   */
  lemma MarkedMessageScenario(entries: seq<KeyTable.Entry>, env: Env)
    requires StandardConverterMap(entries)
    requires env.leaf(LevelClass, [], Logback.Event("{\"message\":\"Hello world!\"}", Some([JsonMessageMarker]))) == "INFO"
    requires env.leaf(LoggerClass, [], Logback.Event("{\"message\":\"Hello world!\"}", Some([JsonMessageMarker]))) == "demo"
    ensures DoJsonLayout(Layout(false, LevelLoggerMessage),
                         Context(Logback.Event("{\"message\":\"Hello world!\"}", Some([JsonMessageMarker])),
                                 KeyTable.RegisterAll(map[], entries), env))
         == map[Some("level") := Str("INFO"), Some("logger") := Str("demo"),
                Some("message") := Raw("{\"message\":\"Hello world!\"}")]
  {
    var e := Logback.Event("{\"message\":\"Hello world!\"}", Some([JsonMessageMarker]));
    assert e.markers.value[0] == JsonMessageMarker;
    var t := KeyTable.RegisterAll(map[], entries);
    StandardKeyTable(entries);
    LevelLoggerMessageRecord(t, e, env, "INFO", "demo");
  }

  /**
   * `%d{HH:mm} %d{ISO8601}`-style patterns: one converter class twice with
   * different options writes one key, and the record keeps the second
   * node's text.
   */
  lemma SameClassTwice(kind: string, first: seq<string>, second: seq<string>, ctx: Context)
    requires kind in ctx.table
    ensures Build([Leaf(kind, first), Leaf(kind, second)], ctx)
         == map[Some(ctx.table[kind]) := Str(ctx.env.leaf(kind, second, ctx.event))]
  {
    BuildSnoc([], Leaf(kind, first), ctx);
    assert [Leaf(kind, first)] == [] + [Leaf(kind, first)];
    BuildSnoc([Leaf(kind, first)], Leaf(kind, second), ctx);
    assert [Leaf(kind, first), Leaf(kind, second)] == [Leaf(kind, first)] + [Leaf(kind, second)];
  }

  /** The class logback selects with `%ex`, `%exception` and `%throwable`. */
  const ThrowableClass: string := "ch.qos.logback.classic.pattern.ThrowableProxyConverter"

  /**
   * `%exception` and `%throwable` select the same class with keywords of
   * nine characters each, so the stack trace's key is decided by the order
   * in which the converter map yields them: "throwable", which the
   * post-pass looks for, when it comes last, and "exception", which it does
   * not look for, otherwise. The model leaves that order open; a JDK
   * `HashMap` happens to yield "exception" first, so the dependence stays
   * latent there.
   */
  lemma ThrowableKeyDependsOnOrder()
    ensures KeyTable.RegisterAll(map[], [KeyTable.Entry("exception", ThrowableClass), KeyTable.Entry("throwable", ThrowableClass)])[ThrowableClass]
         == "throwable"
    ensures KeyTable.RegisterAll(map[], [KeyTable.Entry("throwable", ThrowableClass), KeyTable.Entry("exception", ThrowableClass)])[ThrowableClass]
         == "exception"
  {
    KeyTable.EqualLengthTieIsOrderDependent(map[], ThrowableClass, "exception", "throwable");
  }
}
